=== FILE: README.md ===
# Wedding SNS client rules, in Dafny

This project models the pure rules of the Wedding SNS web client, a small
social network for a wedding party. Guests post short texts, like posts and
choose an avatar from a curated catalog. The client is a thin layer over a
hosted backend. Every backend answer (the session user, a query's rows, an
insert's or update's error) is a parameter of the model. Every call the page
makes (navigation, inserts, updates, alerts, callbacks) is a returned effect.

The modules follow the source files:

- `Wrappers`: `Option` for nullable values and `Outcome` for a backend call's
  success or error.
- `Strings`: the JavaScript string operations the client uses.
  - `startsWith`, `replace` with a string pattern (first occurrence only), and
    `trim` (the ECMAScript white space and line terminator set).
  - `split('@')[0]`, ASCII `toUpperCase`, and `Number.prototype.toString` for
    counts.
- `Messages`: `formatMessage`, the `{key}` placeholder formatter.
  - `Format` is the single left-to-right pass of `/\{(\w+)\}/g`, defined
    recursively.
  - `FormatMessage` is the scanning implementation, proved equal to `Format`.
- `Avatars`: the avatar catalog and its URL encoding.
  - The catalog is five configured lists turned into avatars and concatenated.
  - An avatar's stored URL is `emoji:<emoji>` or the image path.
  - `getAvatarUrl` looks an avatar up by id; `findAvatarByUrl` looks it up by
    URL.
- `AvatarSelector`: the picker.
  - It holds a staged URL and an active tab.
  - Clicks only stage a URL; save hands the staged URL to the caller.
- `AvatarModal`: the full-size avatar view.
  - It decodes a stored URL into an initial, an emoji or an image.
  - It shows the username caption.
- `LikesModal`: the list of users who liked a post.
  - It left-joins like rows with profile rows.
  - It renders the footer count and handles a click on a user.
- `NewPost`: the post composer.
  - The session check redirects to login.
  - It covers the post button, the character counter, and `handlePost` with
    the row it inserts.
- `Onboarding`: the two-step wizard.
  - Step one sets a username, seeded from the e-mail address.
  - Step two picks an avatar through the embedded picker.
  - `saveProfile` builds the profile update record and navigates only after
    the update succeeds.

The main results:

- `formatMessage`:
  - placeholders are replaced independently;
  - missing or empty values keep the placeholder;
  - inserted values are never rescanned;
  - templates without placeholders are fixed points;
  - the scanning implementation equals the one-pass definition.
- Avatar lookups round-trip in both directions: id to URL to avatar, and URL
  to avatar to id.
- Decoding the URL of any catalog avatar shows exactly that avatar.
- Every URL the picker hands to its caller is the URL it was opened with or a
  catalog URL.
- The likes merge keeps the order of the like rows. For each user it takes the
  last profile row with that id.
- The post handler's guard is strictly stronger than the post button's rule.
  A draft of white space only enables the button but is rejected.
- In the onboarding wizard:
  - a skipped avatar is never written;
  - picking and completing writes the picked avatar's URL;
  - the timeline is reached only right after a profile update.

## Model

| member | source | states |
|---|---|---|
| Strings.ReplaceFirst | components/ui/avatar-modal.tsx:25 | `replace` with a string pattern and a literal replacement: without an occurrence the text is unchanged; otherwise exactly the first occurrence is swapped for the replacement and the text on both sides is kept |
| Strings.UpperAscii | components/ui/avatar-modal.tsx:19 | `toUpperCase` on one character: a lower-case ASCII letter becomes its capital, anything else is kept, and the result is never a lower-case letter |
| Strings.ReplaceFirstOfPrefix | components/ui/avatar-modal.tsx:24-25 | replacing the first `emoji:` in a URL that starts with it removes exactly the prefix |
| Strings.Trim | app/post/new/page.tsx:48-58 | the trimmed string is the input with its maximal leading and trailing white-space runs removed, and has no white space at either end |
| Strings.TrimIdempotent | app/onboarding/page.tsx:56-57 | trimming a trimmed username changes nothing, so the stored name is stable under a second trim |
| Strings.TrimEmptyIff | app/post/new/page.tsx:48 | the trim is empty exactly when the string is all white space |
| Strings.Before | app/onboarding/page.tsx:34 | `split('@')[0]` is a prefix of the address with no `@`, ending at the first `@` or at the end |
| Strings.Decimal | components/ui/likes-modal.tsx:156 | a count's text is a non-empty string of digits with no leading zero |
| Strings.DecimalRoundTrip | components/ui/likes-modal.tsx:156 | reading the count's text back as a number gives the count |
| Messages.ValueFor | hooks/useMessages.ts:19 | `params[key]?.toString() \|\| match`: a present, non-empty parameter is the replacement, otherwise the token itself, so a replacement is never empty |
| Messages.Format | hooks/useMessages.ts:18-20 | the global one-pass replacement that the scanner and every lemma below are proved against; it empties only the empty template |
| Messages.MatchAt | hooks/useMessages.ts:18 | the regular expression matches at a position iff a `{`, one or more `[A-Za-z0-9_]` and a `}` start there, and the match is that token |
| Messages.PlaceholderPrefixUnique | hooks/useMessages.ts:18 | at most one placeholder token starts at any position, so the match is determined |
| Messages.ScanPlaceholder | hooks/useMessages.ts:18 | the character scanner finds exactly the match of the regular expression at a position |
| Messages.ScanStep | hooks/useMessages.ts:18-19 | one scan step emits the replacement (or the copied character) and resumes after it, consistently with the one-pass definition |
| Messages.FormatMessage | hooks/useMessages.ts:17-21 | the scanning formatter's result equals the single left-to-right pass of the replacement |
| Messages.FormatPlaceholder | hooks/useMessages.ts:18-19 | a leading `{key}` becomes the key's non-empty value or stays itself, and the rest is formatted on its own |
| Messages.FormatLiteral | hooks/useMessages.ts:18 | a leading character other than `{` is copied unchanged |
| Messages.FormatWithoutPlaceholders | hooks/useMessages.ts:18 | a template with no placeholder token anywhere is returned unchanged for any parameters |
| Messages.FormatWithoutBrace | hooks/useMessages.ts:18 | a template without `{` is returned unchanged for any parameters |
| Messages.FormatEmptyValues | hooks/useMessages.ts:19 | with no parameters, or only empty ones, every placeholder is kept and the template is returned unchanged |
| Messages.FormatAppend | hooks/useMessages.ts:18 | formatting distributes over concatenation when the second part cannot extend a token of the first |
| Messages.FormatAfterText | hooks/useMessages.ts:18-19 | brace-free text is copied, then the placeholder after it is replaced |
| Messages.FormatOne | __tests__/hooks/useMessages.test.ts:13-16 | a single placeholder between brace-free text is replaced by its value and the surrounding text is kept |
| Messages.FormatTwo | __tests__/hooks/useMessages.test.ts:19-23 | two placeholders are each replaced by their own value, independently |
| Messages.ExampleSingle | __tests__/hooks/useMessages.test.ts:13-16 | `Hello, {name}!` with `name = World` gives `Hello, World!` |
| Messages.ExampleTwo | __tests__/hooks/useMessages.test.ts:19-23 | `{greeting}, {name}!` gives `Hi, User!` |
| Messages.ExampleMissing | __tests__/hooks/useMessages.test.ts:25-29 | with no parameters `Hello, {name}!` is returned unchanged |
| Messages.ExampleNoRescan | hooks/useMessages.ts:18-19 | a value containing `{y}` is inserted literally and not replaced again |
| Messages.ExampleNotPlaceholders | hooks/useMessages.ts:18 | `{}`, `{a-b}` and an unclosed `{open` are copied through |
| Messages.FormatUnmatchedBrace | hooks/useMessages.ts:18 | a `{` that opens no token, followed by brace-free text, is copied through with that text |
| Messages.FormatAtMatch | hooks/useMessages.ts:18-19 | at a position where a token matches, the pass emits the key's value and resumes right after the token |
| Messages.FormatAtLiteral | hooks/useMessages.ts:18 | at a position where no token matches, the pass copies one character and resumes at the next |
| Avatars.ImageAvatars | utils/avatars.ts:17-30 | each image entry becomes, in order, an image avatar with its id and label and the value `/images/icon/` + filename |
| Avatars.EmojiAvatars | utils/avatars.ts:36-57 | each emoji entry becomes, in order, an emoji avatar whose value is the emoji |
| Avatars.AllAvatars | utils/avatars.ts:67 | `allAvatars` holds one avatar per configuration entry of the five lists |
| Avatars.Url | utils/avatars.ts:76-80 | the stored URL of an emoji avatar is `emoji:` followed by the emoji, and of an image avatar its image path (the same encoding as components/ui/avatar-selector.tsx:38) |
| Avatars.AllAvatarsOrder | utils/avatars.ts:33-67 | the catalog is groom, bride, emoji animals, emoji faces, emoji celebration in that order, and its length is the sum of the five |
| Avatars.AllAvatarsShaped | utils/avatars.ts:17-30 | every image avatar of the catalog lives under `/images/icon/` |
| Avatars.UrlShape | utils/avatars.ts:76-80 | a catalog URL is non-empty and starts with `emoji:` exactly for emoji avatars, whose URL ends in the emoji |
| Avatars.FindIndex | utils/avatars.ts:73 | `find` yields the first position whose element satisfies the test, or none when no element does |
| Avatars.GetAvatarUrl | utils/avatars.ts:70-81 | null for a null or empty id and for an unknown id; otherwise the URL of the first avatar with that id |
| Avatars.FindAvatarByUrl | utils/avatars.ts:84-92 | null for a null or empty URL; otherwise the first avatar whose URL equals it, or null when none does |
| Avatars.UrlRoundTrip | utils/avatars.ts:70-92 | the URL found for an id finds an avatar with that URL, and with unique URLs it is the avatar with that id |
| Avatars.IdRoundTrip | utils/avatars.ts:70-92 | with unique non-empty ids, the URL of the avatar found for a URL is that URL |
| Avatars.BareEmojiNeverMatches | utils/avatars.ts:86-91 | a URL without the `emoji:` prefix never finds an emoji avatar |
| AvatarSelector.Init | components/ui/avatar-selector.tsx:24-25 | the staged URL starts as the caller's current URL and the groom tab is active |
| AvatarSelector.CurrentAvatars | components/ui/avatar-selector.tsx:72-87 | each tab shows exactly its own category, and an unknown tab shows the groom list |
| AvatarSelector.CurrentAvatarsInCatalog | components/ui/avatar-selector.tsx:72-87 | every avatar shown on any tab belongs to the catalog |
| AvatarSelector.Render | components/ui/avatar-selector.tsx:28-187 | closed renders nothing; open shows the tab's avatars with their URLs, marks an item selected iff its URL is staged, and enables save iff a URL is staged |
| AvatarSelector.Step | components/ui/avatar-selector.tsx:30-181 | a click stages the item's URL, a tab switch keeps it, save calls select then close with a staged URL and does nothing without one, cancel, close and backdrop only close, and only save ever selects |
| AvatarSelector.RunSelectsCatalogUrls | components/ui/avatar-selector.tsx:30-44 | over any sequence of actions, every selected URL is the initial one or a catalog avatar's URL |
| AvatarSelector.ItemUrlIsStoredUrl | components/ui/avatar-selector.tsx:38 | an item's URL is the URL `getAvatarUrl` returns for its id when catalog ids are unique |
| AvatarModal.InitialOf | components/ui/avatar-modal.tsx:19 | the fallback is the username's first character upper-cased, or the silhouette for a null or empty username |
| AvatarModal.Decode | components/ui/avatar-modal.tsx:15-42 | no URL shows the initial glyph of InitialOf, an `emoji:` URL shows what follows the prefix, any other URL is an image whose alt is the username or `avatar` |
| AvatarModal.Render | components/ui/avatar-modal.tsx:13-72 | closed renders nothing; open shows the decoded picture and the caption exactly when the username is non-empty |
| AvatarModal.DecodeUrl | components/ui/avatar-modal.tsx:24-41 | decoding a catalog avatar's URL shows exactly its emoji or its image |
| AvatarModal.DecodeGetAvatarUrl | components/ui/avatar-modal.tsx:15-42 | every URL `getAvatarUrl` returns decodes to the avatar with that id |
| LikesModal.OrNull | components/ui/likes-modal.tsx:63-64 | a missing or empty field becomes null and a non-empty one is kept |
| LikesModal.ProfileMap | components/ui/likes-modal.tsx:58 | the map sends each id to a profile row carrying that id |
| LikesModal.LastWithId | components/ui/likes-modal.tsx:58 | the last profile row with an id, or none when no row has it |
| LikesModal.ProfileMapIsLastWins | components/ui/likes-modal.tsx:58 | the map holds an id iff some row has it, and then maps it to the last such row |
| LikesModal.MergeOne | components/ui/likes-modal.tsx:59-65 | the entry keeps the like's user id and takes the name and avatar from the mapped profile, null when there is none |
| LikesModal.Merge | components/ui/likes-modal.tsx:59-66 | the merged list has one entry per like row, in the same order |
| LikesModal.MergeSpec | components/ui/likes-modal.tsx:58-66 | each entry's name and avatar come from the last profile row with its user id, null when none or empty |
| LikesModal.FetchLikedUsers | components/ui/likes-modal.tsx:30-74 | a likes error keeps the list; no likes empties it without a profile query; otherwise the liking ids are queried and a profile error keeps the list while success installs the merge; loading always ends |
| LikesModal.Footer | components/ui/likes-modal.tsx:154-157 | the footer is shown iff loading is over and the list is non-empty, formatted with the list's length |
| LikesModal.FooterShowsCount | components/ui/likes-modal.tsx:156 | the `{count}` placeholder shows the decimal number of users |
| LikesModal.UserClick | components/ui/likes-modal.tsx:81-84 | choosing a user closes the modal first, then opens `/profile/` followed by that user's id |
| NewPost.Init | app/post/new/page.tsx:12-14 | the page starts with an empty draft, no user, and loading |
| NewPost.ButtonEnabled | app/post/new/page.tsx:104 | the post button is enabled iff the raw draft length is between 1 and 140 and the page is not loading |
| NewPost.CounterOf | app/post/new/page.tsx:143-144 | the counter shows the raw length and is highlighted iff it exceeds 140 |
| NewPost.HandlePost | app/post/new/page.tsx:47-74 | a blank, over-long or signed-out draft does nothing; otherwise one top-level row with the trimmed text and the author's id is inserted, success goes to the timeline, failure alerts, and the draft is kept |
| NewPost.Step | app/post/new/page.tsx:18-131 | no session (on load or on an auth change) redirects to login; edits change only the draft; the button calls the handler only when enabled |
| NewPost.AcceptedDraftEnablesButton | app/post/new/page.tsx:48-104 | every draft the handler accepts satisfies the button's length rule |
| NewPost.BlankDraftEnablesButtonButIsRejected | app/post/new/page.tsx:48-104 | a white-space draft of 1 to 140 characters enables the button but submitting it inserts nothing |
| NewPost.HighlightedDraftIsBlocked | app/post/new/page.tsx:104-143 | a draft the counter highlights disables the button and is refused by the handler |
| NewPost.InsertedRowIsClean | app/post/new/page.tsx:54-61 | an inserted row is the trimmed draft, non-empty, at most 140 characters, by the signed-in user, with no parent |
| NewPost.NavigatesHomeOnlyByArrowOrAfterInsert | app/post/new/page.tsx:63-96 | the timeline is reached only by the header's back arrow (which does nothing else) or by a submit, right after an insert that succeeded |
| Onboarding.DefaultUsername | app/onboarding/page.tsx:34 | the default name is the address up to its first `@`, or empty without an address |
| Onboarding.Init | app/onboarding/page.tsx:17-23 | the wizard starts loading on step one with an empty name, no avatar and the picker hidden |
| Onboarding.NextEnabled | app/onboarding/page.tsx:148 | Next is enabled iff the username is not all white space |
| Onboarding.Record | app/onboarding/page.tsx:54-65 | the record holds the trimmed name iff it is not blank, the avatar URL iff not skipped and non-empty, and always the completion flag |
| Onboarding.Keys | app/onboarding/page.tsx:67 | the record's keys always include the completion flag, and include each optional field exactly when it is set |
| Onboarding.SaveProfile | app/onboarding/page.tsx:49-82 | without a user nothing happens; otherwise the update is always sent first, and the timeline is opened iff it succeeded; a failed update is the only effect |
| Onboarding.EnterStepTwo | app/onboarding/page.tsx:199-205 | entering step two mounts a fresh picker staged on the current avatar, with the groom tab active |
| Onboarding.Apply | app/onboarding/page.tsx:203-204 | the picker's select callback stores the URL (the last one selected wins, and without a select the avatar is unchanged), its close callback hides the picker, and nothing else changes |
| Onboarding.Step | app/onboarding/page.tsx:25-138 | no session redirects to login; on step one a username edit within the input's `maxLength` (or one that shortens the name) replaces the name; Next and Skip go to step two, Skip resetting the name to the default; Back returns; only the picker's save changes the avatar; only Complete and Skip send updates |
| Onboarding.SkipAvatarNeverWritesAvatar | app/onboarding/page.tsx:60-92 | skipping the avatar step never writes an avatar URL and always sets the completion flag |
| Onboarding.ClickThenSave | app/onboarding/page.tsx:200-205 | a click on a shown catalog avatar followed by save stores its URL and hides the picker |
| Onboarding.PickAvatar | app/onboarding/page.tsx:180-205 | opening the picker, clicking a catalog avatar and saving stores its URL without touching the backend |
| Onboarding.PickedAvatarIsWritten | app/onboarding/page.tsx:60-76 | after picking a catalog avatar and completing, the update writes that avatar's URL and the timeline opens once it succeeds |
| Onboarding.StepTimeline | app/onboarding/page.tsx:67-76 | within a single event, a navigation to the timeline always comes right after the profile update that event sends |
| Onboarding.RunAppend | app/onboarding/page.tsx:25-96 | handling two runs of events one after the other is handling their concatenation |
| Onboarding.TimelineOnlyAfterUpdate | app/onboarding/page.tsx:67-76 | over any sequence of events, every navigation to the timeline comes right after a profile update |

## Left out

- Backend calls are not modelled: authentication, queries, inserts and updates. Their results are parameters, and their requests are effects.
- Rendering is not modelled: CSS classes, spinners, the loading screens' content, and re-render timing.
- The presentational components, the timeline and profile pages, the login page and the auth callback are not part of this model.
- Messages.Format takes parameters as strings. The source also accepts numbers, which it turns into their decimal text. Every caller passes strings (counts are converted with `toString` first, as in the likes footer and the post page's character counter), and the model does the same.
- Messages.Format looks keys up in a finite map. JavaScript would also find keys inherited from the object prototype; the model does not.
- NewPost.ButtonEnabled counts the draft's length in characters; JavaScript counts UTF-16 code units. An emoji outside the Basic Multilingual Plane counts once here and twice in the browser.
- NewPost.CounterOf uses the same character count as NewPost.ButtonEnabled.
- NewPost.HandlePost uses the same character count as NewPost.ButtonEnabled.
- Strings.UpperAscii maps only a-z; JavaScript's `toUpperCase` also maps other letters (é to É, ß to SS).
- AvatarModal.InitialOf upper-cases ASCII letters only. It also indexes by character, where JavaScript indexes by UTF-16 code unit.
- The author's picture in the post composer's card, next to the text area (lines 119-124 of app/post/new/page.tsx), is not modelled: it reads user metadata the model does not carry.
- The likes list's per-row rendering is not modelled: the avatar picture, and the guest label for a missing name.
- The likes modal's close button and backdrop, which only call `onClose`, are not modelled.
- The avatar modal's close button and backdrop, which only call `onClose`, are not modelled.
- The onboarding wizard's avatar preview on step two is not modelled. It is the same `emoji:` decoding as AvatarModal.Decode, with a camera icon when there is no URL.
- The onboarding `saving` flag is not modelled. It only disables Complete and Skip while an update is in flight, and each step of the model is atomic.
- Onboarding.Step refuses an edit that ends longer than the input's `maxLength` of 20, unless it shortens the current name. A browser would truncate pasted text instead, and would also accept an edit that keeps an over-long name at the same length. A default name longer than 20 characters is still accepted, as in the source, since it is set by the program and not typed.
- Strings.ReplaceFirst inserts the replacement literally; JavaScript's `replace` would expand `$&`, `$$`, `` $` `` and `$'` in it. The only caller passes the empty replacement.
- The likes modal makes one fetch per opening. Re-fetching when the post id changes is the same function applied again.
- Catalog contents and message texts come from configuration files that are not part of this model. The catalog is a parameter, and uniqueness of ids or URLs is a stated precondition where a lemma needs it.
- The post button tests the raw length; only `handlePost` tests the trimmed text. NewPost.BlankDraftEnablesButtonButIsRejected shows the difference.

=== FILE: avatar_modal.dfy ===
/**
  The full-size avatar view of components/ui/avatar-modal.tsx: how a stored
  avatar URL is decoded for display, and when the username caption appears.
*/
module AvatarModal {
  import opened Wrappers
  import opened Strings
  import opened Avatars

  /** The placeholder glyph shown when there is neither an avatar nor a username. */
  const Silhouette: string := "\U{1F464}"

  /** What the round frame shows. */
  datatype Picture =
    | Initial(glyph: string)
    | Glyph(emoji: string)
    | Img(src: string, alt: string)

  datatype View = View(picture: Picture, caption: Option<string>)

  /** `username?.[0]?.toUpperCase() || '👤'`. */
  function InitialOf(username: Option<string>): (r: string)
    ensures Present(username) ==> r == [UpperAscii(username.value[0])]
    ensures !Present(username) ==> r == Silhouette
  {
    if Present(username) then [UpperAscii(username.value[0])] else Silhouette
  }

  /** `renderAvatar`: no URL shows the initial, an `emoji:` URL shows the emoji after the prefix, anything else is an image. */
  function Decode(avatarUrl: Option<string>, username: Option<string>): (p: Picture)
    ensures !Present(avatarUrl) <==> p.Initial?
    ensures p.Initial? ==> p.glyph == InitialOf(username)
    ensures p.Glyph? <==> Present(avatarUrl) && StartsWith(avatarUrl.value, EmojiPrefix)
    ensures p.Glyph? ==> p.emoji == avatarUrl.value[|EmojiPrefix|..]
    ensures p.Img? ==> p.src == avatarUrl.value && p.alt == (if Present(username) then username.value else "avatar")
  {
    if !Present(avatarUrl) then Initial(InitialOf(username))
    else
      var url := avatarUrl.value;
      if StartsWith(url, EmojiPrefix) then
        ReplaceFirstOfPrefix(url, EmojiPrefix);
        Glyph(ReplaceFirst(url, EmojiPrefix, ""))
      else
        Img(url, if Present(username) then username.value else "avatar")
  }

  /** The modal renders nothing when closed; open, it shows the picture and the username caption when the username is non-empty. */
  function Render(isOpen: bool, avatarUrl: Option<string>, username: Option<string>): (r: Option<View>)
    ensures r.None? <==> !isOpen
    ensures r.Some? ==> r.value.picture == Decode(avatarUrl, username)
    ensures r.Some? ==> (r.value.caption.Some? <==> Present(username))
    ensures r.Some? && r.value.caption.Some? ==> r.value.caption == username
  {
    if !isOpen then None
    else Some(View(Decode(avatarUrl, username), if Present(username) then username else None))
  }

  /** The picture displays avatar `a`: its emoji, or its image. */
  predicate Shows(p: Picture, a: Avatar) {
    match p
    case Glyph(e) => a.kind == Emoji && e == a.value
    case Img(src, _) => a.kind == Image && src == a.value
    case Initial(_) => false
  }

  /**
    Decoding the URL of a catalog avatar recovers it: an emoji avatar shows
    exactly its emoji, an image avatar shows its image path.
  */
  lemma DecodeUrl(a: Avatar, username: Option<string>)
    requires Shaped(a)
    ensures Shows(Decode(Some(Url(a)), username), a)
  {
    UrlShape(a);
  }

  /** Every URL `getAvatarUrl` hands out decodes to the avatar with that id. */
  lemma DecodeGetAvatarUrl(c: Config, id: string, username: Option<string>)
    requires GetAvatarUrl(c, Some(id)).Some?
    ensures exists a :: a in AllAvatars(c) && a.id == id && Shows(Decode(GetAvatarUrl(c, Some(id)), username), a)
  {
    var all := AllAvatars(c);
    var i :| 0 <= i < |all| && all[i].id == id && GetAvatarUrl(c, Some(id)).value == Url(all[i]);
    AllAvatarsShaped(c);
    assert all[i] in all;
    DecodeUrl(all[i], username);
  }
}

=== FILE: avatar_selector.dfy ===
/**
  The avatar picker of components/ui/avatar-selector.tsx: a staged selection
  and an active tab, item clicks that only stage, and a save button that hands
  the staged URL to the caller.
*/
module AvatarSelector {
  import opened Wrappers
  import opened Avatars

  const GroomTab: string := "groom"
  const BrideTab: string := "bride"
  const EmojiAnimalsTab: string := "emojiAnimals"
  const EmojiFacesTab: string := "emojiFaces"
  const EmojiCelebrationTab: string := "emojiCelebration"

  /** The keys of the five tab buttons. */
  predicate IsTab(t: string) {
    t == GroomTab || t == BrideTab || t == EmojiAnimalsTab || t == EmojiFacesTab || t == EmojiCelebrationTab
  }

  /** The component state: the staged URL (not yet committed) and the active tab. */
  datatype Selector = Selector(staged: Option<string>, tab: string)

  /** What the user can do while the picker is shown. */
  datatype Event =
    | ClickItem(avatar: Avatar)
    | SwitchTab(tab: string)
    | Save
    | Cancel
    | CloseButton
    | Backdrop

  /** Calls back into the parent. */
  datatype Effect = OnSelect(url: string) | OnClose

  datatype Item = Item(avatar: Avatar, url: string, selected: bool)

  datatype View = View(tab: string, items: seq<Item>, saveEnabled: bool)

  /** The state on mount: the caller's current URL is staged and the groom tab is active. */
  function Init(currentAvatarUrl: Option<string>): (s: Selector)
    ensures s.staged == currentAvatarUrl && s.tab == GroomTab
  {
    Selector(currentAvatarUrl, GroomTab)
  }

  /** `getCurrentAvatars`: the list of the active tab, the groom list for any other key. */
  function CurrentAvatars(c: Config, tab: string): (r: seq<Avatar>)
    ensures tab == BrideTab ==> r == BrideAvatars(c)
    ensures tab == EmojiAnimalsTab ==> r == EmojiAnimalAvatars(c)
    ensures tab == EmojiFacesTab ==> r == EmojiFaceAvatars(c)
    ensures tab == EmojiCelebrationTab ==> r == EmojiCelebrationAvatars(c)
    ensures !IsTab(tab) || tab == GroomTab ==> r == GroomAvatars(c)
  {
    if tab == GroomTab then GroomAvatars(c)
    else if tab == BrideTab then BrideAvatars(c)
    else if tab == EmojiAnimalsTab then EmojiAnimalAvatars(c)
    else if tab == EmojiFacesTab then EmojiFaceAvatars(c)
    else if tab == EmojiCelebrationTab then EmojiCelebrationAvatars(c)
    else GroomAvatars(c)
  }

  /** Whatever the tab, the items shown belong to the catalog. */
  lemma CurrentAvatarsInCatalog(c: Config, tab: string)
    ensures forall a :: a in CurrentAvatars(c, tab) ==> a in AllAvatars(c)
  {
    AllAvatarsOrder(c);
  }

  /** The picker as displayed: nothing when closed; otherwise the items of the tab, each marked selected iff its URL is the staged one, and save enabled iff a URL is staged. */
  function Render(c: Config, isOpen: bool, s: Selector): (r: Option<View>)
    ensures r.None? <==> !isOpen
    ensures r.Some? ==> r.value.tab == s.tab && |r.value.items| == |CurrentAvatars(c, s.tab)|
    ensures r.Some? ==> forall i :: 0 <= i < |r.value.items| ==>
      && r.value.items[i].avatar == CurrentAvatars(c, s.tab)[i]
      && r.value.items[i].url == Url(CurrentAvatars(c, s.tab)[i])
      && (r.value.items[i].selected <==> s.staged == Some(Url(CurrentAvatars(c, s.tab)[i])))
    ensures r.Some? ==> (r.value.saveEnabled <==> Present(s.staged))
  {
    if !isOpen then None
    else
      var avatars := CurrentAvatars(c, s.tab);
      var items := seq(|avatars|, i requires 0 <= i < |avatars| =>
        Item(avatars[i], Url(avatars[i]), s.staged == Some(Url(avatars[i]))));
      Some(View(s.tab, items, Present(s.staged)))
  }

  /**
    One user action. A click on a shown item stages its URL; a tab button
    switches tabs; save hands the staged URL to the caller and closes, but only
    when a URL is staged; cancel, the close button and the backdrop only close.
    A closed picker shows nothing and so receives nothing.
  */
  function Step(c: Config, isOpen: bool, s: Selector, e: Event): (r: (Selector, seq<Effect>))
    ensures !isOpen ==> r == (s, [])
    ensures isOpen && e.ClickItem? && e.avatar in CurrentAvatars(c, s.tab) ==>
      r.0 == s.(staged := Some(Url(e.avatar))) && r.1 == []
    ensures isOpen && e.SwitchTab? && IsTab(e.tab) ==> r.0 == s.(tab := e.tab) && r.1 == []
    ensures isOpen && e.Save? && Present(s.staged) ==> r == (s, [OnSelect(s.staged.value), OnClose])
    ensures isOpen && e.Save? && !Present(s.staged) ==> r == (s, [])
    ensures isOpen && (e.Cancel? || e.CloseButton? || e.Backdrop?) ==> r == (s, [OnClose])
    ensures r.0.tab != s.tab ==> isOpen && e.SwitchTab?
    ensures r.0.staged != s.staged ==> isOpen && e.ClickItem?
    ensures forall u :: OnSelect(u) in r.1 ==>
      isOpen && e.Save? && s.staged == Some(u) && u != "" && r.1 == [OnSelect(u), OnClose]
  {
    if !isOpen then (s, [])
    else match e
      case ClickItem(a) =>
        if a in CurrentAvatars(c, s.tab) then (s.(staged := Some(Url(a))), []) else (s, [])
      case SwitchTab(t) => if IsTab(t) then (s.(tab := t), []) else (s, [])
      case Save => if Present(s.staged) then (s, [OnSelect(s.staged.value), OnClose]) else (s, [])
      case Cancel => (s, [OnClose])
      case CloseButton => (s, [OnClose])
      case Backdrop => (s, [OnClose])
  }

  /** A sequence of actions while the picker stays open, with all the callbacks made in order. */
  function Run(c: Config, s: Selector, events: seq<Event>): (Selector, seq<Effect>)
    decreases |events|
  {
    if events == [] then (s, [])
    else
      var (s1, fx1) := Step(c, true, s, events[0]);
      var (s2, fx2) := Run(c, s1, events[1..]);
      (s2, fx1 + fx2)
  }

  /** The staged URL is the initial one or the URL of a catalog avatar. */
  predicate StagedFromCatalog(c: Config, initial: Option<string>, s: Selector) {
    s.staged == initial || exists a :: a in AllAvatars(c) && s.staged == Some(Url(a))
  }

  /**
    Whatever the user does, every URL handed to `onSelect` is the URL the
    picker was opened with or the URL of a catalog avatar.
  */
  lemma {:induction false} RunSelectsCatalogUrls(c: Config, initial: Option<string>, s: Selector, events: seq<Event>)
    requires StagedFromCatalog(c, initial, s)
    ensures StagedFromCatalog(c, initial, Run(c, s, events).0)
    ensures forall u :: OnSelect(u) in Run(c, s, events).1 ==>
      Some(u) == initial || exists a :: a in AllAvatars(c) && u == Url(a)
    decreases |events|
  {
    if events != [] {
      var (s1, fx1) := Step(c, true, s, events[0]);
      CurrentAvatarsInCatalog(c, s.tab);
      assert StagedFromCatalog(c, initial, s1);
      RunSelectsCatalogUrls(c, initial, s1, events[1..]);
    }
  }

  /** An item's URL is the URL `getAvatarUrl` gives for its id, when catalog ids are unique. */
  lemma ItemUrlIsStoredUrl(c: Config, tab: string, a: Avatar)
    requires a in CurrentAvatars(c, tab) && a.id != ""
    requires UniqueIds(AllAvatars(c))
    ensures GetAvatarUrl(c, Some(a.id)) == Some(Url(a))
  {
    CurrentAvatarsInCatalog(c, tab);
    var all := AllAvatars(c);
    var k :| 0 <= k < |all| && all[k] == a;
    var i :| 0 <= i < |all| && all[i].id == a.id && GetAvatarUrl(c, Some(a.id)).value == Url(all[i]);
    assert i == k;
  }
}

=== FILE: avatars.dfy ===
/**
  The avatar catalog of utils/avatars.ts: five category lists read from the
  static configuration, their concatenation, the stored URL of an avatar
  (`emoji:<emoji>` for an emoji, the image path otherwise), lookup by id and
  reverse lookup by URL.
*/
module Avatars {
  import opened Wrappers
  import opened Strings

  datatype Kind = Image | Emoji

  /** One catalog entry; `value` is the image path or the emoji itself, `title` the display label. */
  datatype Avatar = Avatar(id: string, kind: Kind, value: string, title: string)

  /** The configuration shape of an image entry and of an emoji entry. */
  datatype ImageEntry = ImageEntry(id: string, filename: string, title: string)
  datatype EmojiEntry = EmojiEntry(id: string, emoji: string, title: string)

  /** The static configuration: five named lists. */
  datatype Config = Config(
    groomAvatars: seq<ImageEntry>,
    brideAvatars: seq<ImageEntry>,
    emojiAnimals: seq<EmojiEntry>,
    emojiFaces: seq<EmojiEntry>,
    emojiCelebration: seq<EmojiEntry>)

  const IconDir: string := "/images/icon/"
  const EmojiPrefix: string := "emoji:"

  /** An image list: each entry becomes an image avatar served from the icon directory. */
  function ImageAvatars(entries: seq<ImageEntry>): (r: seq<Avatar>)
    ensures |r| == |entries|
    ensures forall i :: 0 <= i < |r| ==>
      r[i] == Avatar(entries[i].id, Image, IconDir + entries[i].filename, entries[i].title)
  {
    if entries == [] then []
    else
      var e := entries[0];
      [Avatar(e.id, Image, IconDir + e.filename, e.title)] + ImageAvatars(entries[1..])
  }

  /** An emoji list: each entry becomes an emoji avatar whose value is the emoji. */
  function EmojiAvatars(entries: seq<EmojiEntry>): (r: seq<Avatar>)
    ensures |r| == |entries|
    ensures forall i :: 0 <= i < |r| ==>
      r[i] == Avatar(entries[i].id, Emoji, entries[i].emoji, entries[i].title)
  {
    if entries == [] then []
    else
      var e := entries[0];
      [Avatar(e.id, Emoji, e.emoji, e.title)] + EmojiAvatars(entries[1..])
  }

  function GroomAvatars(c: Config): seq<Avatar> { ImageAvatars(c.groomAvatars) }
  function BrideAvatars(c: Config): seq<Avatar> { ImageAvatars(c.brideAvatars) }
  function EmojiAnimalAvatars(c: Config): seq<Avatar> { EmojiAvatars(c.emojiAnimals) }
  function EmojiFaceAvatars(c: Config): seq<Avatar> { EmojiAvatars(c.emojiFaces) }
  function EmojiCelebrationAvatars(c: Config): seq<Avatar> { EmojiAvatars(c.emojiCelebration) }

  /** The two image categories together (kept for backward compatibility). */
  function AnimalAvatars(c: Config): seq<Avatar> { GroomAvatars(c) + BrideAvatars(c) }

  /** The three emoji categories together (kept for backward compatibility). */
  function AllEmojiAvatars(c: Config): seq<Avatar> {
    EmojiAnimalAvatars(c) + EmojiFaceAvatars(c) + EmojiCelebrationAvatars(c)
  }

  /** The whole catalog. */
  function AllAvatars(c: Config): (r: seq<Avatar>)
    ensures |r| == |c.groomAvatars| + |c.brideAvatars| + |c.emojiAnimals| + |c.emojiFaces| + |c.emojiCelebration|
  {
    AnimalAvatars(c) + AllEmojiAvatars(c)
  }

  /** The catalog is the five categories in order groom, bride, animals, faces, celebration. */
  lemma AllAvatarsOrder(c: Config)
    ensures AllAvatars(c) == GroomAvatars(c) + BrideAvatars(c) + EmojiAnimalAvatars(c)
                             + EmojiFaceAvatars(c) + EmojiCelebrationAvatars(c)
    ensures |AllAvatars(c)| == |c.groomAvatars| + |c.brideAvatars| + |c.emojiAnimals|
                               + |c.emojiFaces| + |c.emojiCelebration|
  {
    hide ImageAvatars, EmojiAvatars;
    var g, b := GroomAvatars(c), BrideAvatars(c);
    var ea, ef, ec := EmojiAnimalAvatars(c), EmojiFaceAvatars(c), EmojiCelebrationAvatars(c);
    assert AllAvatars(c) == (g + b) + ((ea + ef) + ec);
    assert (g + b) + ((ea + ef) + ec) == ((g + b) + (ea + ef)) + ec;
    assert (g + b) + (ea + ef) == ((g + b) + ea) + ef;
  }

  /** What the catalog builders produce: image paths under the icon directory. */
  predicate Shaped(a: Avatar) {
    a.kind == Image ==> StartsWith(a.value, IconDir)
  }

  lemma AllAvatarsShaped(c: Config)
    ensures forall a :: a in AllAvatars(c) ==> Shaped(a)
  {
    forall a | a in AllAvatars(c) ensures Shaped(a) {
      if a.kind == Image {
        assert a in GroomAvatars(c) || a in BrideAvatars(c);
        assert a.value[..|IconDir|] == IconDir;
      }
    }
  }

  /** The URL stored in a profile for an avatar: `emoji:` and the emoji, or the image path. */
  function Url(a: Avatar): (r: string)
    ensures a.kind == Emoji ==> StartsWith(r, EmojiPrefix) && r[|EmojiPrefix|..] == a.value
    ensures a.kind == Image ==> r == a.value
  {
    if a.kind == Emoji then EmojiPrefix + a.value else a.value
  }

  /** Catalog URLs are never empty, and exactly the emoji ones start with `emoji:`. */
  lemma UrlShape(a: Avatar)
    requires Shaped(a)
    ensures Url(a) != ""
    ensures StartsWith(Url(a), EmojiPrefix) <==> a.kind == Emoji
    ensures a.kind == Emoji ==> Url(a)[|EmojiPrefix|..] == a.value
  {
    if a.kind == Image {
      assert Url(a)[0] == IconDir[0] == '/';
    } else {
      assert Url(a)[..|EmojiPrefix|] == EmojiPrefix;
    }
  }

  /** `Array.prototype.findIndex`: the first position satisfying `p`. */
  function FindIndex<T>(s: seq<T>, p: T -> bool): (r: Option<nat>)
    ensures r.Some? ==> r.value < |s| && p(s[r.value])
    ensures r.Some? ==> forall j :: 0 <= j < r.value ==> !p(s[j])
    ensures r.None? ==> forall j :: 0 <= j < |s| ==> !p(s[j])
  {
    if s == [] then None
    else if p(s[0]) then Some(0)
    else match FindIndex(s[1..], p)
      case None => None
      case Some(i) => Some(i + 1)
  }

  /** `getAvatarUrl(id)`: null for a null or empty id and for an id not in the catalog, else the URL of the first avatar with that id. */
  function GetAvatarUrl(c: Config, avatarId: Option<string>): (r: Option<string>)
    ensures avatarId.None? || avatarId == Some("") ==> r.None?
    ensures avatarId.Some? && avatarId.value != "" ==>
      (r.Some? <==> exists a :: a in AllAvatars(c) && a.id == avatarId.value)
    ensures r.Some? ==> exists i :: 0 <= i < |AllAvatars(c)| && AllAvatars(c)[i].id == avatarId.value
                          && r.value == Url(AllAvatars(c)[i])
                          && forall j :: 0 <= j < i ==> AllAvatars(c)[j].id != avatarId.value
  {
    if avatarId.None? || avatarId.value == "" then None
    else
      var all := AllAvatars(c);
      match FindIndex(all, (a: Avatar) => a.id == avatarId.value)
      case None => None
      case Some(i) => Some(Url(all[i]))
  }

  /** `findAvatarByUrl(url)`: null for a null or empty URL, else the first avatar whose URL is `url`, or null. */
  function FindAvatarByUrl(c: Config, url: Option<string>): (r: Option<Avatar>)
    ensures url.None? || url == Some("") ==> r.None?
    ensures url.Some? && url.value != "" ==>
      (r.Some? <==> exists a :: a in AllAvatars(c) && Url(a) == url.value)
    ensures r.Some? ==> exists i :: 0 <= i < |AllAvatars(c)| && AllAvatars(c)[i] == r.value
                          && Url(r.value) == url.value
                          && forall j :: 0 <= j < i ==> Url(AllAvatars(c)[j]) != url.value
  {
    if url.None? || url.value == "" then None
    else
      var all := AllAvatars(c);
      match FindIndex(all, (a: Avatar) => Url(a) == url.value)
      case None => None
      case Some(i) => Some(all[i])
  }

  /** No two catalog positions carry the same id. */
  predicate UniqueIds(s: seq<Avatar>) {
    forall i, j :: 0 <= i < j < |s| ==> s[i].id != s[j].id
  }

  /** No two catalog positions carry the same URL. */
  predicate UniqueUrls(s: seq<Avatar>) {
    forall i, j :: 0 <= i < j < |s| ==> Url(s[i]) != Url(s[j])
  }

  /**
    Looking up an id and then looking its URL back up finds an avatar with that
    URL; when URLs are unique it is the avatar with that id.
  */
  lemma UrlRoundTrip(c: Config, id: string)
    requires GetAvatarUrl(c, Some(id)).Some?
    ensures var u := GetAvatarUrl(c, Some(id)).value;
      && FindAvatarByUrl(c, Some(u)).Some?
      && Url(FindAvatarByUrl(c, Some(u)).value) == u
      && (UniqueUrls(AllAvatars(c)) ==> FindAvatarByUrl(c, Some(u)).value.id == id)
  {
    var all := AllAvatars(c);
    var u := GetAvatarUrl(c, Some(id)).value;
    var i :| 0 <= i < |all| && all[i].id == id && u == Url(all[i]);
    AllAvatarsShaped(c);
    UrlShape(all[i]);
    assert all[i] in all;
    var b := FindAvatarByUrl(c, Some(u)).value;
    var k :| 0 <= k < |all| && all[k] == b && Url(b) == u && forall j :: 0 <= j < k ==> Url(all[j]) != u;
    if UniqueUrls(all) {
      assert k == i;
    }
  }

  /**
    Looking up a URL and then the found avatar's id gives back the URL, when ids
    are unique and non-empty.
  */
  lemma IdRoundTrip(c: Config, url: string)
    requires FindAvatarByUrl(c, Some(url)).Some?
    requires UniqueIds(AllAvatars(c))
    requires FindAvatarByUrl(c, Some(url)).value.id != ""
    ensures GetAvatarUrl(c, Some(FindAvatarByUrl(c, Some(url)).value.id)) == Some(url)
  {
    var all := AllAvatars(c);
    var b := FindAvatarByUrl(c, Some(url)).value;
    var k :| 0 <= k < |all| && all[k] == b && Url(b) == url;
    assert b in all;
    var i :| 0 <= i < |all| && all[i].id == b.id && GetAvatarUrl(c, Some(b.id)).value == Url(all[i]);
    assert i == k;
  }

  /** A URL without the `emoji:` prefix (a bare emoji, say) never finds an emoji avatar. */
  lemma BareEmojiNeverMatches(c: Config, url: string)
    requires !StartsWith(url, EmojiPrefix)
    ensures FindAvatarByUrl(c, Some(url)).Some? ==> FindAvatarByUrl(c, Some(url)).value.kind == Image
  {
  }
}

=== FILE: likes_modal.dfy ===
/**
  The "who liked this" list of components/ui/likes-modal.tsx: like rows
  (already ordered newest first by the query) joined on the client with
  profile rows by user id, plus the footer and the click-through rules.
*/
module LikesModal {
  import opened Wrappers
  import opened Strings
  import opened Messages

  datatype LikeRow = LikeRow(userId: string)

  datatype Profile = Profile(id: string, username: Option<string>, avatarUrl: Option<string>)

  /** One entry of the list: a missing profile or an empty field reads as null. */
  datatype LikeUser = LikeUser(userId: string, username: Option<string>, avatarUrl: Option<string>)

  /** `x || null` on a nullable string. */
  function OrNull(s: Option<string>): (r: Option<string>)
    ensures r.Some? <==> s.Some? && s.value != ""
    ensures r.Some? ==> r == s
  {
    if Present(s) then s else None
  }

  /** `new Map(profiles.map(p => [p.id, p]))`: later rows overwrite earlier ones with the same id. */
  function ProfileMap(profiles: seq<Profile>): (m: map<string, Profile>)
    ensures forall id :: id in m ==> m[id].id == id
    decreases |profiles|
  {
    if profiles == [] then map[]
    else
      var last := profiles[|profiles| - 1];
      ProfileMap(profiles[..|profiles| - 1])[last.id := last]
  }

  /** The last profile row with id `id`, searched from the end. */
  function LastWithId(profiles: seq<Profile>, id: string): (r: Option<nat>)
    ensures r.Some? ==> r.value < |profiles| && profiles[r.value].id == id
    ensures r.Some? ==> forall j :: r.value < j < |profiles| ==> profiles[j].id != id
    ensures r.None? ==> forall j :: 0 <= j < |profiles| ==> profiles[j].id != id
    decreases |profiles|
  {
    if profiles == [] then None
    else if profiles[|profiles| - 1].id == id then Some(|profiles| - 1)
    else LastWithId(profiles[..|profiles| - 1], id)
  }

  /** The map holds, for each id, exactly the last profile row carrying it. */
  lemma {:induction false} ProfileMapIsLastWins(profiles: seq<Profile>, id: string)
    ensures id in ProfileMap(profiles) <==> LastWithId(profiles, id).Some?
    ensures id in ProfileMap(profiles) ==> ProfileMap(profiles)[id] == profiles[LastWithId(profiles, id).value]
    decreases |profiles|
  {
    if profiles != [] {
      var init := profiles[..|profiles| - 1];
      ProfileMapIsLastWins(init, id);
      if LastWithId(init, id).Some? {
        assert profiles[LastWithId(init, id).value] == init[LastWithId(init, id).value];
      }
    }
  }

  /** The merged entry for one like row. */
  function MergeOne(m: map<string, Profile>, like: LikeRow): (u: LikeUser)
    ensures u.userId == like.userId
    ensures like.userId !in m ==> u.username.None? && u.avatarUrl.None?
    ensures like.userId in m ==> u.username == OrNull(m[like.userId].username)
                                 && u.avatarUrl == OrNull(m[like.userId].avatarUrl)
  {
    if like.userId in m then
      var p := m[like.userId];
      LikeUser(like.userId, OrNull(p.username), OrNull(p.avatarUrl))
    else LikeUser(like.userId, None, None)
  }

  /** The left join of like rows with profile rows, in the order of the like rows. */
  function Merge(likes: seq<LikeRow>, profiles: seq<Profile>): (r: seq<LikeUser>)
    ensures |r| == |likes|
    ensures forall i :: 0 <= i < |r| ==> r[i] == MergeOne(ProfileMap(profiles), likes[i])
  {
    var m := ProfileMap(profiles);
    seq(|likes|, i requires 0 <= i < |likes| => MergeOne(m, likes[i]))
  }

  /**
    Each merged entry carries its like row's user id, and its name and avatar
    come from the last profile row with that id, null when there is none or
    the field is empty.
  */
  lemma MergeSpec(likes: seq<LikeRow>, profiles: seq<Profile>, i: nat)
    requires i < |likes|
    ensures var u := Merge(likes, profiles)[i];
      && u.userId == likes[i].userId
      && (LastWithId(profiles, likes[i].userId).None? ==> u.username.None? && u.avatarUrl.None?)
      && (LastWithId(profiles, likes[i].userId).Some? ==>
            var p := profiles[LastWithId(profiles, likes[i].userId).value];
            u.username == OrNull(p.username) && u.avatarUrl == OrNull(p.avatarUrl))
  {
    ProfileMapIsLastWins(profiles, likes[i].userId);
  }

  /** The outcome of the profile query, made only when there are likes. */
  datatype ProfilesResult = ProfilesOk(rows: seq<Profile>) | ProfilesErr

  /** The outcome of the likes query. */
  datatype LikesResult = LikesOk(rows: seq<LikeRow>) | LikesErr

  datatype Fetched = Fetched(users: seq<LikeUser>, loading: bool, profileQuery: Option<seq<string>>)

  /**
    `fetchLikedUsers`: on a likes error the list is kept; no likes empties it
    without querying profiles; otherwise the profiles of the liking user ids are
    queried and, unless that fails, the merge replaces the list. Loading always
    ends.
  */
  function FetchLikedUsers(previous: seq<LikeUser>, likes: LikesResult, profiles: ProfilesResult): (r: Fetched)
    ensures !r.loading
    ensures likes.LikesErr? ==> r.users == previous && r.profileQuery.None?
    ensures likes.LikesOk? && likes.rows == [] ==> r.users == [] && r.profileQuery.None?
    ensures likes.LikesOk? && likes.rows != [] ==>
      && r.profileQuery.Some?
      && |r.profileQuery.value| == |likes.rows|
      && (forall i :: 0 <= i < |likes.rows| ==> r.profileQuery.value[i] == likes.rows[i].userId)
      && (profiles.ProfilesErr? ==> r.users == previous)
      && (profiles.ProfilesOk? ==> r.users == Merge(likes.rows, profiles.rows))
  {
    match likes
    case LikesErr => Fetched(previous, false, None)
    case LikesOk(rows) =>
      if rows == [] then Fetched([], false, None)
      else
        var ids := seq(|rows|, i requires 0 <= i < |rows| => rows[i].userId);
        match profiles
        case ProfilesErr => Fetched(previous, false, Some(ids))
        case ProfilesOk(ps) => Fetched(Merge(rows, ps), false, Some(ids))
  }

  /** The footer with the count is shown iff loading is over and the list is non-empty. */
  function Footer(loading: bool, users: seq<LikeUser>, countTemplate: string): (r: Option<string>)
    ensures r.Some? <==> !loading && |users| > 0
    ensures r.Some? ==> r.value == Format(countTemplate, map["count" := Decimal(|users|)])
  {
    if !loading && |users| > 0 then Some(Format(countTemplate, map["count" := Decimal(|users|)])) else None
  }

  /** The count placeholder in a brace-free frame always shows the number of users in decimal. */
  lemma FooterShowsCount(loading: bool, users: seq<LikeUser>, template: string, pre: string, post: string)
    requires !loading && |users| > 0
    requires template == pre + Token("count") + post && '{' !in pre && '{' !in post
    ensures Footer(loading, users, template) == Some(pre + Decimal(|users|) + post)
    ensures DecimalValue(Decimal(|users|)) == |users|
  {
    var count := Decimal(|users|);
    DecimalRoundTrip(|users|);
    assert IsKey("count");
    FormatOne(pre, "count", post, map["count" := count]);
    hide Format, Decimal, DecimalValue;
    assert ValueFor("count", map["count" := count]) == count;
  }

  datatype Effect = OnClose | Navigate(path: string)

  const ProfileRoute: string := "/profile/"

  /** Choosing a user closes the modal, then opens that user's profile. */
  function UserClick(userId: string): (fx: seq<Effect>)
    ensures |fx| == 2 && fx[0] == OnClose && fx[1].Navigate?
    ensures StartsWith(fx[1].path, ProfileRoute) && fx[1].path[|ProfileRoute|..] == userId
  {
    [OnClose, Navigate(ProfileRoute + userId)]
  }
}

=== FILE: messages.dfy ===
/**
  `formatMessage(template, params)` of hooks/useMessages.ts: one global pass of
  the regular expression `\{(\w+)\}` over the template, each match replaced by
  `params[key]` when that is present and non-empty, and otherwise kept as it is.
*/
module Messages {
  import opened Wrappers
  import opened Strings

  /** `\w` of a JavaScript regular expression without the `u` flag. */
  predicate IsWordChar(c: char) {
    ('A' <= c <= 'Z') || ('a' <= c <= 'z') || ('0' <= c <= '9') || c == '_'
  }

  /** `p` is one placeholder token: `{`, one or more word characters, `}`. */
  predicate IsPlaceholder(p: string) {
    && |p| >= 3 && p[0] == '{' && p[|p| - 1] == '}'
    && forall i :: 1 <= i < |p| - 1 ==> IsWordChar(p[i])
  }

  /** The key a placeholder token names. */
  function KeyOf(token: string): string
    requires IsPlaceholder(token)
  {
    token[1..|token| - 1]
  }

  /** The length of the run of word characters `s` starts with. */
  function WordRun(s: string): (n: nat)
    ensures n <= |s|
    ensures forall i :: 0 <= i < n ==> IsWordChar(s[i])
    ensures n < |s| ==> !IsWordChar(s[n])
  {
    if |s| > 0 && IsWordChar(s[0]) then 1 + WordRun(s[1..]) else 0
  }

  /** A run of word characters that stops at the end or before a non-word character is the whole run. */
  lemma WordRunUnique(s: string, n: nat)
    requires n <= |s|
    requires forall i :: 0 <= i < n ==> IsWordChar(s[i])
    requires n < |s| ==> !IsWordChar(s[n])
    ensures WordRun(s) == n
  {
  }

  /**
    Where the regular expression matches when tried at the start of `s`: the
    length of the placeholder token `s` begins with, if it begins with one.
  */
  function MatchAt(s: string): (r: Option<nat>)
    ensures r.Some? ==> 3 <= r.value <= |s| && IsPlaceholder(s[..r.value])
    ensures r.None? ==> forall n :: 0 <= n <= |s| ==> !IsPlaceholder(s[..n])
  {
    if |s| == 0 || s[0] != '{' then None
    else
      var n := WordRun(s[1..]);
      if n > 0 && n + 1 < |s| && s[n + 1] == '}' then
        Some(n + 2)
      else
        None
  }

  /** A string begins with at most one placeholder token. */
  lemma PlaceholderPrefixUnique(s: string, m: nat, n: nat)
    requires m <= |s| && n <= |s|
    requires IsPlaceholder(s[..m]) && IsPlaceholder(s[..n])
    ensures m == n
  {
  }

  /** The placeholder token for `key`. */
  function Token(key: string): string {
    "{" + key + "}"
  }

  /** What replaces a placeholder for `key`: the parameter when present and non-empty, else the placeholder itself (`|| match`). */
  function ValueFor(key: string, params: map<string, string>): (r: string)
    ensures r != []
    ensures key in params && params[key] != "" ==> r == params[key]
    ensures key !in params || params[key] == "" ==> r == Token(key)
  {
    if key in params && params[key] != "" then params[key] else Token(key)
  }

  /** The formatter, one left-to-right pass; text after a replacement is never rescanned. */
  function Format(template: string, params: map<string, string>): (r: string)
    ensures r == [] <==> template == []
    decreases |template|
  {
    if |template| == 0 then ""
    else match MatchAt(template)
      case Some(n) => ValueFor(KeyOf(template[..n]), params) + Format(template[n..], params)
      case None => [template[0]] + Format(template[1..], params)
  }

  /** A placeholder at the front is replaced by its value (or kept), and the rest is formatted on its own. */
  lemma FormatPlaceholder(key: string, rest: string, params: map<string, string>)
    requires |key| > 0 && forall i :: 0 <= i < |key| ==> IsWordChar(key[i])
    ensures Format(Token(key) + rest, params) == ValueFor(key, params) + Format(rest, params)
  {
    var token := Token(key);
    var t := token + rest;
    assert t[..|token|] == token;
    assert IsPlaceholder(token) by {
      forall i | 1 <= i < |token| - 1 ensures IsWordChar(token[i]) {
        assert token[i] == key[i - 1];
      }
    }
    assert KeyOf(token) == key;
    var r := MatchAt(t);
    assert r.Some?;
    PlaceholderPrefixUnique(t, r.value, |token|);
    assert t[|token|..] == rest;
  }

  /** A character other than `{` is copied and the rest is formatted on its own. */
  lemma FormatLiteral(c: char, rest: string, params: map<string, string>)
    requires c != '{'
    ensures Format([c] + rest, params) == [c] + Format(rest, params)
  {
    assert ([c] + rest)[1..] == rest;
  }

  /** A template in which no substring is a placeholder comes back unchanged, whatever the parameters. */
  lemma {:induction false} FormatWithoutPlaceholders(t: string, params: map<string, string>)
    requires forall i, j :: 0 <= i <= j <= |t| ==> !IsPlaceholder(t[i..j])
    ensures Format(t, params) == t
  {
    if |t| > 0 {
      assert forall n :: 0 <= n <= |t| ==> t[..n] == t[0..n];
      forall i, j | 0 <= i <= j <= |t[1..]| ensures !IsPlaceholder(t[1..][i..j]) {
        assert t[1..][i..j] == t[i + 1..j + 1];
      }
      FormatWithoutPlaceholders(t[1..], params);
    }
  }

  /** A template without `{` comes back unchanged. */
  lemma FormatWithoutBrace(t: string, params: map<string, string>)
    requires '{' !in t
    ensures Format(t, params) == t
  {
    forall i, j | 0 <= i <= j <= |t| ensures !IsPlaceholder(t[i..j]) {
      if j - i >= 3 {
        assert t[i..j][0] == t[i];
      }
    }
    FormatWithoutPlaceholders(t, params);
  }

  /** With only empty values (in particular with no parameters) every placeholder is kept: the template comes back unchanged. */
  lemma {:induction false} FormatEmptyValues(t: string, params: map<string, string>)
    requires forall k :: k in params ==> params[k] == ""
    ensures Format(t, params) == t
  {
    if |t| > 0 {
      match MatchAt(t)
      case Some(n) =>
        assert t[..n] == Token(KeyOf(t[..n]));
        assert t == t[..n] + t[n..];
        FormatEmptyValues(t[n..], params);
      case None =>
        assert t == [t[0]] + t[1..];
        FormatEmptyValues(t[1..], params);
    }
  }

  /** `b` cannot continue a token begun in `a`. */
  predicate SafeBoundary(b: string) {
    b == [] || (!IsWordChar(b[0]) && b[0] != '}')
  }

  lemma {:induction false} WordRunAppend(a: string, b: string)
    requires SafeBoundary(b)
    ensures WordRun(a + b) == WordRun(a)
  {
    var n := WordRun(a);
    forall i | 0 <= i < n ensures IsWordChar((a + b)[i]) {
      assert (a + b)[i] == a[i];
    }
    if n < |a| {
      assert (a + b)[n] == a[n];
    }
    WordRunUnique(a + b, n);
  }

  lemma MatchAtAppend(a: string, b: string)
    requires |a| > 0 && SafeBoundary(b)
    ensures MatchAt(a + b) == MatchAt(a)
  {
    var s := a + b;
    assert s[0] == a[0];
    if a[0] == '{' {
      assert s[1..] == a[1..] + b;
      WordRunAppend(a[1..], b);
      var n := WordRun(a[1..]);
      if n + 1 < |a| {
        assert s[n + 1] == a[n + 1];
      }
    }
  }

  /**
    Formatting is local: text joined at a boundary that cannot extend a
    placeholder formats piece by piece, so placeholders are replaced independently.
  */
  lemma {:induction false} FormatAppend(a: string, b: string, params: map<string, string>)
    requires SafeBoundary(b)
    ensures Format(a + b, params) == Format(a, params) + Format(b, params)
    decreases |a|
  {
    if |a| == 0 {
      assert a + b == b;
    } else {
      MatchAtAppend(a, b);
      match MatchAt(a)
      case Some(n) =>
        var v := ValueFor(KeyOf(a[..n]), params);
        assert (a + b)[..n] == a[..n];
        assert (a + b)[n..] == a[n..] + b;
        assert Format(a + b, params) == v + Format(a[n..] + b, params);
        FormatAppend(a[n..], b, params);
        AppendAssoc(v, Format(a[n..], params), Format(b, params));
      case None =>
        var c := [a[0]];
        assert (a + b)[1..] == a[1..] + b;
        assert Format(a + b, params) == c + Format(a[1..] + b, params);
        FormatAppend(a[1..], b, params);
        AppendAssoc(c, Format(a[1..], params), Format(b, params));
    }
  }

  predicate IsKey(key: string) {
    |key| > 0 && forall i :: 0 <= i < |key| ==> IsWordChar(key[i])
  }

  /** After brace-free text, a placeholder is replaced and what follows is formatted on its own. */
  lemma FormatAfterText(pre: string, key: string, rest: string, params: map<string, string>)
    requires '{' !in pre && IsKey(key)
    ensures Format(pre + Token(key) + rest, params) == pre + ValueFor(key, params) + Format(rest, params)
  {
    var tail := Token(key) + rest;
    AppendAssoc(pre, Token(key), rest);
    assert SafeBoundary(tail) by { assert tail[0] == '{'; }
    FormatAppend(pre, tail, params);
    FormatWithoutBrace(pre, params);
    FormatPlaceholder(key, rest, params);
    AppendAssoc(pre, ValueFor(key, params), Format(rest, params));
  }

  /** One placeholder between brace-free text is replaced and the text around it is kept. */
  lemma FormatOne(pre: string, key: string, post: string, params: map<string, string>)
    requires '{' !in pre && '{' !in post && IsKey(key)
    ensures Format(pre + Token(key) + post, params) == pre + ValueFor(key, params) + post
  {
    FormatAfterText(pre, key, post, params);
    FormatWithoutBrace(post, params);
  }

  /** Two placeholders are each replaced by their own value, independently of each other. */
  lemma FormatTwo(pre: string, k1: string, mid: string, k2: string, post: string, params: map<string, string>)
    requires '{' !in pre && '{' !in mid && '{' !in post && IsKey(k1) && IsKey(k2)
    ensures Format(pre + Token(k1) + mid + Token(k2) + post, params)
         == pre + ValueFor(k1, params) + mid + ValueFor(k2, params) + post
  {
    hide Format;
    var second := mid + Token(k2) + post;
    assert pre + Token(k1) + mid + Token(k2) + post == pre + Token(k1) + second;
    FormatAfterText(pre, k1, second, params);
    FormatOne(mid, k2, post, params);
  }

  /** The worked example of the test suite: `Hello, {name}!` with `name = World`. */
  lemma ExampleSingle(t: string)
    requires t == "Hello, {name}!"
    ensures Format(t, map["name" := "World"]) == "Hello, World!"
  {
    hide Format, ValueFor;
    assert t == "Hello, " + Token("name") + "!";
    FormatOne("Hello, ", "name", "!", map["name" := "World"]);
  }

  /** The test with two placeholders: `{greeting}, {name}!`. */
  lemma ExampleTwo(t: string, params: map<string, string>)
    requires t == Token("greeting") + ", " + Token("name") + "!"
    requires params == map["greeting" := "Hi", "name" := "User"]
    ensures Format(t, params) == "Hi, User!"
  {
    hide Format, ValueFor;
    assert t == "" + Token("greeting") + ", " + Token("name") + "!";
    FormatTwo("", "greeting", ", ", "name", "!", params);
  }

  /** A brace that opens no placeholder, followed by brace-free text, is copied with it. */
  lemma FormatUnmatchedBrace(t: string, params: map<string, string>)
    requires |t| > 0 && MatchAt(t).None? && '{' !in t[1..]
    ensures Format(t, params) == t
  {
    FormatWithoutBrace(t[1..], params);
  }

  /** A missing key keeps its placeholder. */
  lemma ExampleMissing()
    ensures Format("Hello, {name}!", map[]) == "Hello, {name}!"
  {
    FormatEmptyValues("Hello, {name}!", map[]);
  }

  /** An inserted value is not scanned again: `{y}` inside the value of `x` stays literal. */
  lemma ExampleNoRescan()
    ensures Format("{x}", map["x" := "{y}", "y" := "Z"]) == "{y}"
  {
    assert "{x}" == Token("x") + "";
    FormatPlaceholder("x", "", map["x" := "{y}", "y" := "Z"]);
  }

  /** Braces that do not enclose one or more word characters are copied through. */
  lemma ExampleNotPlaceholders(empty: string, dashed: string, open: string, params: map<string, string>)
    requires empty == "{}" && dashed == "{a-b}" && open == "{open"
    ensures Format(empty, params) == empty
    ensures Format(dashed, params) == dashed
    ensures Format(open, params) == open
  {
    assert WordRun(empty[1..]) == 0;
    FormatUnmatchedBrace(empty, params);
    WordRunUnique(dashed[1..], 1);
    FormatUnmatchedBrace(dashed, params);
    WordRunUnique(open[1..], 4);
    FormatUnmatchedBrace(open, params);
  }

  lemma FormatEmpty(t: string, params: map<string, string>)
    requires t == []
    ensures Format(t, params) == []
  {
  }

  lemma AppendAssoc(a: string, b: string, c: string)
    ensures a + (b + c) == (a + b) + c
  {
  }

  lemma FormatUnfoldMatch(s: string, n: nat, params: map<string, string>)
    requires MatchAt(s) == Some(n)
    ensures Format(s, params) == ValueFor(KeyOf(s[..n]), params) + Format(s[n..], params)
  {
  }

  /** The pass at a position where a placeholder of length `n` matches: its value, then the rest. */
  lemma FormatAtMatch(t: string, i: nat, n: nat, params: map<string, string>)
    requires i < |t| && MatchAt(t[i..]) == Some(n)
    ensures Format(t[i..], params) == ValueFor(t[i + 1..i + n - 1], params) + Format(t[i + n..], params)
  {
    var s := t[i..];
    FormatUnfoldMatch(s, n, params);
    assert 3 <= n <= |s|;
    hide Format, ValueFor, MatchAt, WordRun;
    var key := s[..n][1..n - 1];
    assert KeyOf(s[..n]) == key;
    forall k | 0 <= k < n - 2 ensures key[k] == t[i + 1..i + n - 1][k] {
      assert key[k] == s[..n][k + 1];
      assert s[..n][k + 1] == s[k + 1];
      assert s[k + 1] == t[i + 1 + k];
    }
    assert key == t[i + 1..i + n - 1];
    assert s[n..] == t[i + n..];
  }

  /** The pass at a position where no placeholder matches: the character, then the rest. */
  lemma FormatAtLiteral(t: string, i: nat, params: map<string, string>)
    requires i < |t| && MatchAt(t[i..]).None?
    ensures Format(t[i..], params) == [t[i]] + Format(t[i + 1..], params)
  {
    assert t[i..][1..] == t[i + 1..];
  }

  /** Tries the regular expression at position `i` of `t`, scanning the run of word characters. */
  method ScanPlaceholder(t: string, i: nat) returns (m: Option<nat>)
    requires i < |t|
    ensures m == MatchAt(t[i..])
  {
    if t[i] != '{' {
      return None;
    }
    var j := i + 1;
    while j < |t| && IsWordChar(t[j])
      invariant i + 1 <= j <= |t|
      invariant forall k :: i + 1 <= k < j ==> IsWordChar(t[k])
      decreases |t| - j
    {
      j := j + 1;
    }
    assert t[i..][1..] == t[i + 1..];
    WordRunUnique(t[i + 1..], j - i - 1);
    if j > i + 1 && j < |t| && t[j] == '}' {
      m := Some(j + 1 - i);
    } else {
      m := None;
    }
  }

  /** One step of the scan at position `i`: the text it emits and where the scan resumes. */
  method ScanStep(template: string, i: nat, params: map<string, string>) returns (emitted: string, next: nat)
    requires i < |template|
    ensures i < next <= |template|
    ensures Format(template[i..], params) == emitted + Format(template[next..], params)
  {
    hide *;
    var m := ScanPlaceholder(template, i);
    match m
    case Some(n) =>
      FormatAtMatch(template, i, n, params);
      emitted, next := ValueFor(template[i + 1..i + n - 1], params), i + n;
    case None =>
      FormatAtLiteral(template, i, params);
      emitted, next := [template[i]], i + 1;
  }

  /**
    The formatter as a scanner over indices, the way the regular-expression
    engine runs: try a match at `i`; on success append the replacement and jump
    past the match, otherwise copy one character.
  */
  method FormatMessage(template: string, params: map<string, string>) returns (r: string)
    ensures r == Format(template, params)
  {
    hide Format;
    r := "";
    var i := 0;
    assert template[0..] == template;
    while i < |template|
      invariant 0 <= i <= |template|
      invariant r + Format(template[i..], params) == Format(template, params)
      decreases |template| - i
    {
      var emitted, next := ScanStep(template, i, params);
      AppendAssoc(r, emitted, Format(template[next..], params));
      r, i := r + emitted, next;
    }
    FormatEmpty(template[i..], params);
  }
}

=== FILE: new_post.dfy ===
/**
  The post composer of app/post/new/page.tsx: the session check, the draft,
  the post button and character counter, and `handlePost` with the row it
  inserts. The backend's answers are parameters; what the page does in
  response is returned as a sequence of effects.
*/
module NewPost {
  import opened Wrappers
  import opened Strings

  /** The longest draft the page accepts. */
  const MaxLength: nat := 140

  const TimelineRoute: string := "/"
  const LoginRoute: string := "/login"

  /** The alert shown when the insert fails. */
  const FailureMessage: string := "投稿に失敗しました。もう一度お試しください。"

  datatype User = User(id: string)

  /** A row of the posts table; the composer never sets a parent, so it only creates top-level posts. */
  datatype PostRow = PostRow(content: string, userId: string, parentId: Option<string>)

  datatype Effect =
    | Navigate(path: string)
    | Insert(row: PostRow)
    | Alert(message: string)

  /** The page state: the draft, the signed-in user, and whether the page is loading (it then shows only a spinner). */
  datatype Page = Page(content: string, user: Option<User>, loading: bool)

  /** What can happen to the page. */
  datatype Event =
    | Loaded(sessionUser: Option<User>)
    | AuthChanged(sessionUser: Option<User>)
    | Edit(text: string)
    | Submit(outcome: Outcome)
    | BackArrow

  /** On mount: an empty draft, no user yet, loading. */
  function Init(): (p: Page)
    ensures p.content == [] && p.user.None? && p.loading
  {
    Page("", None, true)
  }

  /** The drafts `handlePost` lets through: something besides white space, at most 140 characters, and a signed-in author. */
  predicate Accepts(content: string, user: Option<User>) {
    Trim(content) != [] && |content| <= MaxLength && user.Some?
  }

  /** The post button's rule: a non-empty draft of at most 140 characters while the page is not loading. */
  function ButtonEnabled(p: Page): (b: bool)
    ensures b ==> !p.loading
    ensures b <==> !p.loading && 0 < |p.content| <= MaxLength
  {
    |p.content| != 0 && |p.content| <= MaxLength && !p.loading
  }

  /** The character counter: the draft's length, highlighted once it is over the limit. */
  datatype Counter = Counter(count: nat, highlighted: bool)

  function CounterOf(content: string): (c: Counter)
    ensures c.count == |content|
    ensures c.highlighted <==> c.count > MaxLength
  {
    Counter(|content|, |content| > MaxLength)
  }

  /**
    `handlePost`. A rejected draft changes nothing and touches no backend.
    Otherwise one row is inserted; on success the page goes back to the
    timeline, on failure it alerts. The draft is kept either way and loading
    ends.
  */
  function HandlePost(p: Page, outcome: Outcome): (r: (Page, seq<Effect>))
    ensures !Accepts(p.content, p.user) ==> r == (p, [])
    ensures Accepts(p.content, p.user) ==>
      && r.0 == p.(loading := false)
      && |r.1| == 2
      && r.1[0] == Insert(PostRow(Trim(p.content), p.user.value.id, None))
      && (outcome == Ok ==> r.1[1] == Navigate(TimelineRoute))
      && (outcome == Err ==> r.1[1] == Alert(FailureMessage))
  {
    if Trim(p.content) == [] || |p.content| > MaxLength || p.user.None? then (p, [])
    else
      var row := PostRow(Trim(p.content), p.user.value.id, None);
      var after := if outcome == Ok then Navigate(TimelineRoute) else Alert(FailureMessage);
      (p.(loading := false), [Insert(row), after])
  }

  /**
    One event. Without a session, initially or after an auth change, the page
    sends the visitor to the login page. While loading only the spinner is
    shown, so edits and clicks do not reach it; the button only calls
    `handlePost` when it is enabled, and the header's back arrow goes to the
    timeline.
  */
  function Step(p: Page, e: Event): (r: (Page, seq<Effect>))
    ensures e.Loaded? && e.sessionUser.None? ==> r == (p, [Navigate(LoginRoute)])
    ensures e.Loaded? && e.sessionUser.Some? ==> r == (p.(user := e.sessionUser, loading := false), [])
    ensures e.AuthChanged? && e.sessionUser.None? ==> r == (p, [Navigate(LoginRoute)])
    ensures e.AuthChanged? && e.sessionUser.Some? ==> r == (p.(user := e.sessionUser), [])
    ensures e.Edit? ==> r.1 == [] && r.0 == (if p.loading then p else p.(content := e.text))
    ensures e.Submit? && !ButtonEnabled(p) ==> r == (p, [])
    ensures e.Submit? && ButtonEnabled(p) ==> r == HandlePost(p, e.outcome)
    ensures e.BackArrow? ==> r == (p, if p.loading then [] else [Navigate(TimelineRoute)])
  {
    match e
    case Loaded(u) =>
      if u.None? then (p, [Navigate(LoginRoute)]) else (p.(user := u, loading := false), [])
    case AuthChanged(u) =>
      if u.None? then (p, [Navigate(LoginRoute)]) else (p.(user := u), [])
    case Edit(text) => if p.loading then (p, []) else (p.(content := text), [])
    case Submit(outcome) => if ButtonEnabled(p) then HandlePost(p, outcome) else (p, [])
    case BackArrow => if p.loading then (p, []) else (p, [Navigate(TimelineRoute)])
  }

  /** Every draft the handler accepts also has the button's length: the guard is the stricter rule. */
  lemma AcceptedDraftEnablesButton(p: Page)
    requires Accepts(p.content, p.user) && !p.loading
    ensures ButtonEnabled(p)
  {
  }

  /**
    The converse fails: a draft of white space only (a single space, say)
    enables the button, yet `handlePost` rejects it and inserts nothing.
  */
  lemma BlankDraftEnablesButtonButIsRejected(p: Page, outcome: Outcome)
    requires !p.loading && 0 < |p.content| <= MaxLength && AllSpace(p.content)
    ensures ButtonEnabled(p)
    ensures Step(p, Submit(outcome)) == (p, [])
  {
    TrimEmptyIff(p.content);
  }

  /** An over-long draft is highlighted by the counter, cannot be submitted, and is refused by the handler. */
  lemma HighlightedDraftIsBlocked(p: Page, outcome: Outcome)
    requires CounterOf(p.content).highlighted
    ensures !ButtonEnabled(p)
    ensures HandlePost(p, outcome) == (p, [])
  {
  }

  /**
    Whatever is inserted is a top-level post by the signed-in user whose text
    is the trimmed draft: non-empty, at most 140 characters, and with no white
    space at either end.
  */
  lemma InsertedRowIsClean(p: Page, e: Event, row: PostRow)
    requires Insert(row) in Step(p, e).1
    ensures e.Submit? && p.user.Some?
    ensures row == PostRow(Trim(p.content), p.user.value.id, None)
    ensures row.content != [] && |row.content| <= MaxLength && Trimmed(row.content)
  {
  }

  /**
    The timeline is reached in two ways only: by the back arrow, which does
    nothing else, or by a submit, right after an insert that succeeded.
  */
  lemma NavigatesHomeOnlyByArrowOrAfterInsert(p: Page, e: Event)
    requires Navigate(TimelineRoute) in Step(p, e).1
    ensures e.BackArrow? || e == Submit(Ok)
    ensures e.BackArrow? ==> !p.loading && Step(p, e) == (p, [Navigate(TimelineRoute)])
    ensures e.Submit? ==>
      && Accepts(p.content, p.user)
      && Step(p, e).1 == [Insert(PostRow(Trim(p.content), p.user.value.id, None)), Navigate(TimelineRoute)]
  {
  }
}

=== FILE: onboarding.dfy ===
/**
  The two-step onboarding wizard of app/onboarding/page.tsx: a username step
  seeded from the e-mail address, an avatar step that embeds the avatar
  picker, and `saveProfile`, which builds the profile update record and goes
  to the timeline only once the update succeeded.
*/
module Onboarding {
  import opened Wrappers
  import opened Strings
  import opened Avatars
  import AvatarSelector

  /** The input's `maxLength`. */
  const MaxUsernameLength: nat := 20

  const TimelineRoute: string := "/"
  const LoginRoute: string := "/login"

  datatype User = User(id: string, email: Option<string>)

  datatype StepNo = One | Two

  /**
    The page state. The picker keeps its own state while step two is shown;
    it is created afresh, from the current avatar URL, each time step two is
    entered.
  */
  datatype Wizard = Wizard(
    loading: bool,
    user: Option<User>,
    step: StepNo,
    username: string,
    avatarUrl: Option<string>,
    showSelector: bool,
    selector: AvatarSelector.Selector)

  /**
    The fields sent to the profiles table. An absent field is left out of the
    update altogether (it is not written as null); `onboarding_completed` is
    always written.
  */
  datatype UpdateRecord = UpdateRecord(username: Option<string>, avatarUrl: Option<string>, onboardingCompleted: bool)

  datatype Effect =
    | Navigate(path: string)
    | UpdateProfile(userId: string, record: UpdateRecord)

  datatype Event =
    | Loaded(sessionUser: Option<User>)
    | EditUsername(text: string)
    | Next
    | SkipUsername
    | Back
    | OpenSelector
    | Selector(e: AvatarSelector.Event)
    | Complete(outcome: Outcome)
    | SkipAvatar(outcome: Outcome)

  /** `email?.split('@')[0] || ''`: the part of the address before its first `@`, or empty without an address. */
  function DefaultUsername(email: Option<string>): (r: string)
    ensures email.None? ==> r == []
    ensures email.Some? ==> StartsWith(email.value, r) && '@' !in r
    ensures email.Some? && |r| < |email.value| ==> email.value[|r|] == '@'
  {
    if email.None? then [] else Before(email.value, '@')
  }

  /** On mount: step one with an empty name and no avatar, loading until the session is known. */
  function Init(): (w: Wizard)
    ensures w.loading && w.user.None? && w.step == One
    ensures w.username == [] && w.avatarUrl.None? && !w.showSelector
  {
    Wizard(true, None, One, "", None, false, AvatarSelector.Init(None))
  }

  /**
    The input's `maxLength`: an edit is taken when the result fits, and also
    when it shortens a longer name (the default name may exceed the limit,
    and deleting from it is allowed).
  */
  predicate EditAllowed(current: string, text: string) {
    |text| <= MaxUsernameLength || |text| < |current|
  }

  /** The Next button is enabled iff the username is not blank. */
  function NextEnabled(w: Wizard): (b: bool)
    ensures b <==> !AllSpace(w.username)
  {
    TrimEmptyIff(w.username);
    Trim(w.username) != []
  }

  /** `saveProfile`'s record: the trimmed username unless it is blank, the avatar URL unless skipped or empty, and the completion flag. */
  function Record(username: string, avatarUrl: Option<string>, skipAvatar: bool): (u: UpdateRecord)
    ensures u.onboardingCompleted
    ensures u.username.Some? <==> !AllSpace(username)
    ensures u.username.Some? ==> u.username.value == Trim(username) && u.username.value != [] && Trimmed(u.username.value)
    ensures u.avatarUrl.Some? <==> !skipAvatar && Present(avatarUrl)
    ensures u.avatarUrl.Some? ==> u.avatarUrl == avatarUrl
  {
    TrimEmptyIff(username);
    UpdateRecord(
      if Trim(username) != [] then Some(Trim(username)) else None,
      if !skipAvatar && Present(avatarUrl) then avatarUrl else None,
      true)
  }

  /** `Object.keys(updates)`, in the order the fields are assigned. */
  function Keys(u: UpdateRecord): (ks: seq<string>)
    ensures "onboarding_completed" in ks
    ensures "username" in ks <==> u.username.Some?
    ensures "avatar_url" in ks <==> u.avatarUrl.Some?
  {
    (if u.username.Some? then ["username"] else [])
    + (if u.avatarUrl.Some? then ["avatar_url"] else [])
    + ["onboarding_completed"]
  }

  /**
    `saveProfile(skipAvatar)`. Without a user nothing happens. Otherwise the
    record always has a key, so the update is always sent, and the wizard
    goes to the timeline only when the update reported no error.
  */
  function SaveProfile(w: Wizard, skipAvatar: bool, outcome: Outcome): (fx: seq<Effect>)
    ensures w.user.None? ==> fx == []
    ensures w.user.Some? ==> |fx| >= 1 && fx[0] == UpdateProfile(w.user.value.id, Record(w.username, w.avatarUrl, skipAvatar))
    ensures Navigate(TimelineRoute) in fx <==> w.user.Some? && outcome == Ok
    ensures Navigate(TimelineRoute) in fx ==> fx == [fx[0], Navigate(TimelineRoute)]
    ensures w.user.Some? && outcome == Err ==> fx == [UpdateProfile(w.user.value.id, Record(w.username, w.avatarUrl, skipAvatar))]
  {
    if w.user.None? then []
    else
      var record := Record(w.username, w.avatarUrl, skipAvatar);
      var update := if |Keys(record)| > 0 then [UpdateProfile(w.user.value.id, record)] else [];
      update + (if outcome == Ok then [Navigate(TimelineRoute)] else [])
  }

  /** The wizard on entering step two, with a fresh picker staged on the current avatar. */
  function EnterStepTwo(w: Wizard): (r: Wizard)
    ensures r.step == Two && r.selector.staged == w.avatarUrl && r.selector.tab == AvatarSelector.GroomTab
    ensures r == w.(step := Two, selector := r.selector)
  {
    w.(step := Two, selector := AvatarSelector.Init(w.avatarUrl))
  }

  /** The parent's side of the picker's callbacks: `onSelect` stores the URL, `onClose` hides the picker. */
  function Apply(w: Wizard, fx: seq<AvatarSelector.Effect>): (r: Wizard)
    ensures r.showSelector == (w.showSelector && AvatarSelector.OnClose !in fx)
    ensures r.avatarUrl != w.avatarUrl ==> exists url :: AvatarSelector.OnSelect(url) in fx && r.avatarUrl == Some(url)
    ensures forall i :: 0 <= i < |fx| && fx[i].OnSelect? && (forall j :: i < j < |fx| ==> !fx[j].OnSelect?) ==>
      r.avatarUrl == Some(fx[i].url)
    ensures (forall x :: x in fx ==> !x.OnSelect?) ==> r.avatarUrl == w.avatarUrl
    ensures r == w.(showSelector := r.showSelector, avatarUrl := r.avatarUrl)
    decreases |fx|
  {
    if fx == [] then w
    else
      var w1 := match fx[0]
        case OnSelect(url) => w.(avatarUrl := Some(url))
        case OnClose => w.(showSelector := false);
      Apply(w1, fx[1..])
  }

  /**
    One event. While loading only the spinner is shown; afterwards step one
    offers the name field, Next (when the name is not blank) and Skip, and
    step two offers the picker, Complete, Back and Skip.
  */
  function Step(c: Config, w: Wizard, e: Event): (r: (Wizard, seq<Effect>))
    ensures e.Loaded? && e.sessionUser.None? ==> r == (w, [Navigate(LoginRoute)])
    ensures e.Loaded? && e.sessionUser.Some? ==>
      r == (w.(user := e.sessionUser, username := DefaultUsername(e.sessionUser.value.email), loading := false), [])
    ensures !e.Loaded? && w.loading ==> r == (w, [])
    ensures e.Next? && !w.loading && w.step == One ==>
      r == (if NextEnabled(w) then (EnterStepTwo(w), []) else (w, []))
    ensures e.SkipUsername? && !w.loading && w.step == One ==>
      r == (EnterStepTwo(w.(username := if w.user.Some? then DefaultUsername(w.user.value.email) else [])), [])
    ensures e.Back? && !w.loading && w.step == Two ==> r == (w.(step := One), [])
    ensures e.EditUsername? && !w.loading && w.step == One ==>
      r == (if EditAllowed(w.username, e.text) then w.(username := e.text) else w, [])
    ensures r.0.step != w.step ==> e.Next? || e.SkipUsername? || e.Back?
    ensures r.0.avatarUrl != w.avatarUrl ==> e.Selector? && e.e.Save?
    ensures (e.Complete? || e.SkipAvatar?) && !w.loading && w.step == Two ==>
      r == (w, SaveProfile(w, e.SkipAvatar?, e.outcome))
    ensures forall x :: x in r.1 && x.UpdateProfile? ==> e.Complete? || e.SkipAvatar?
  {
    if e.Loaded? then
      match e.sessionUser
      case None => (w, [Navigate(LoginRoute)])
      case Some(u) => (w.(user := Some(u), username := DefaultUsername(u.email), loading := false), [])
    else if w.loading then (w, [])
    else match w.step
      case One =>
        (match e
         case EditUsername(text) =>
           if EditAllowed(w.username, text) then (w.(username := text), []) else (w, [])
         case Next => if NextEnabled(w) then (EnterStepTwo(w), []) else (w, [])
         case SkipUsername =>
           var name := if w.user.Some? then DefaultUsername(w.user.value.email) else [];
           (EnterStepTwo(w.(username := name)), [])
         case _ => (w, []))
      case Two =>
        (match e
         case Back => (w.(step := One), [])
         case OpenSelector => (w.(showSelector := true), [])
         case Selector(se) =>
           var (sel, sfx) := AvatarSelector.Step(c, w.showSelector, w.selector, se);
           (Apply(w.(selector := sel), sfx), [])
         case Complete(outcome) => (w, SaveProfile(w, false, outcome))
         case SkipAvatar(outcome) => (w, SaveProfile(w, true, outcome))
         case _ => (w, []))
  }

  /** A sequence of events with all the effects produced, in order. */
  function Run(c: Config, w: Wizard, events: seq<Event>): (Wizard, seq<Effect>)
    decreases |events|
  {
    if events == [] then (w, [])
    else
      var (w1, fx1) := Step(c, w, events[0]);
      var (w2, fx2) := Run(c, w1, events[1..]);
      (w2, fx1 + fx2)
  }

  /** Skipping the avatar never writes one, whatever was picked before. */
  lemma SkipAvatarNeverWritesAvatar(c: Config, w: Wizard, outcome: Outcome, x: Effect)
    requires x in Step(c, w, SkipAvatar(outcome)).1
    ensures x.UpdateProfile? ==> x.record.avatarUrl.None? && x.record.onboardingCompleted
  {
  }

  /** Running a non-empty sequence is one step followed by the rest. */
  lemma RunCons(c: Config, w: Wizard, e: Event, rest: seq<Event>)
    ensures Run(c, w, [e] + rest)
      == (Run(c, Step(c, w, e).0, rest).0, Step(c, w, e).1 + Run(c, Step(c, w, e).0, rest).1)
  {
    assert ([e] + rest)[1..] == rest;
  }

  /** Running two sequences one after the other is running their concatenation. */
  lemma {:induction false} RunAppend(c: Config, w: Wizard, xs: seq<Event>, ys: seq<Event>)
    ensures Run(c, w, xs + ys) == (Run(c, Run(c, w, xs).0, ys).0, Run(c, w, xs).1 + Run(c, Run(c, w, xs).0, ys).1)
    decreases |xs|
  {
    RunUnfold(c, w, xs);
    RunUnfold(c, w, xs + ys);
    hide Step, Run;
    if xs == [] {
      assert xs + ys == ys;
      assert [] + Run(c, w, ys).1 == Run(c, w, ys).1;
    } else {
      var (w1, fx1) := Step(c, w, xs[0]);
      assert (xs + ys)[0] == xs[0] && (xs + ys)[1..] == xs[1..] + ys;
      RunAppend(c, w1, xs[1..], ys);
      var (w2, fx2) := Run(c, w1, xs[1..]);
      var (w3, fx3) := Run(c, w2, ys);
      assert fx1 + (fx2 + fx3) == (fx1 + fx2) + fx3;
    }
  }

  /** Clicking a catalog avatar of the current tab in the open picker, then saving, stores its URL and hides the picker. */
  lemma ClickThenSave(c: Config, w: Wizard, a: Avatar)
    requires !w.loading && w.step == Two && w.showSelector
    requires a in AvatarSelector.CurrentAvatars(c, w.selector.tab)
    ensures var w2 := Step(c, w, Selector(AvatarSelector.ClickItem(a))).0;
      && Step(c, w, Selector(AvatarSelector.ClickItem(a))).1 == []
      && Step(c, w2, Selector(AvatarSelector.Save)).1 == []
      && Step(c, w2, Selector(AvatarSelector.Save)).0
           == w2.(avatarUrl := Some(Url(a)), showSelector := false)
      && w2 == w.(selector := w.selector.(staged := Some(Url(a))))
  {
    AllAvatarsShaped(c);
    AvatarSelector.CurrentAvatarsInCatalog(c, w.selector.tab);
    UrlShape(a);
    var w2 := w.(selector := w.selector.(staged := Some(Url(a))));
    assert Step(c, w, Selector(AvatarSelector.ClickItem(a))) == (w2, []);
    assert AvatarSelector.Step(c, true, w2.selector, AvatarSelector.Save)
      == (w2.selector, [AvatarSelector.OnSelect(Url(a)), AvatarSelector.OnClose]);
  }

  /** Running a single event is that step. */
  lemma RunOne(c: Config, w: Wizard, e: Event)
    ensures Run(c, w, [e]) == Step(c, w, e)
  {
    RunCons(c, w, e, []);
    assert [e] + [] == [e];
    assert Step(c, w, e).1 + [] == Step(c, w, e).1;
  }

  /** Opening the picker, clicking a catalog avatar of the current tab and saving stores its URL and closes the picker, with no effect on the backend. */
  lemma PickAvatar(c: Config, w: Wizard, a: Avatar, events: seq<Event>)
    requires !w.loading && w.step == Two
    requires a in AvatarSelector.CurrentAvatars(c, w.selector.tab)
    requires events == [OpenSelector, Selector(AvatarSelector.ClickItem(a)), Selector(AvatarSelector.Save)]
    ensures Run(c, w, events).1 == []
    ensures var w' := Run(c, w, events).0;
      w' == w.(avatarUrl := Some(Url(a)), showSelector := false, selector := w.selector.(staged := Some(Url(a))))
  {
    var e0, e1, e2 := OpenSelector, Selector(AvatarSelector.ClickItem(a)), Selector(AvatarSelector.Save);
    var w1 := w.(showSelector := true);
    assert Step(c, w, e0) == (w1, []);
    ClickThenSave(c, w1, a);
    var w2 := Step(c, w1, e1).0;
    var w3 := Step(c, w2, e2).0;
    RunOne(c, w2, e2);
    RunCons(c, w1, e1, [e2]);
    assert [e1, e2] == [e1] + [e2];
    RunCons(c, w, e0, [e1, e2]);
    assert events == [e0] + [e1, e2];
  }

  /**
    Opening the picker on step two, clicking a catalog avatar of the current
    tab, saving, and completing writes exactly that avatar's URL, then goes to
    the timeline once the update succeeds.
  */
  lemma PickedAvatarIsWritten(c: Config, w: Wizard, a: Avatar, events: seq<Event>)
    requires !w.loading && w.step == Two && w.user.Some?
    requires a in AvatarSelector.CurrentAvatars(c, w.selector.tab)
    requires events == [OpenSelector, Selector(AvatarSelector.ClickItem(a)), Selector(AvatarSelector.Save), Complete(Ok)]
    ensures var (w', fx) := Run(c, w, events);
      && w'.avatarUrl == Some(Url(a))
      && !w'.showSelector
      && fx == [UpdateProfile(w.user.value.id, Record(w.username, Some(Url(a)), false)), Navigate(TimelineRoute)]
  {
    hide Step, Run, SaveProfile, Record;
    var pick := events[..3];
    assert events == pick + [Complete(Ok)];
    PickAvatar(c, w, a, pick);
    var w3 := Run(c, w, pick).0;
    RunAppend(c, w, pick, [Complete(Ok)]);
    RunOne(c, w3, Complete(Ok));
    var fx := SaveProfile(w3, false, Ok);
    assert Step(c, w3, Complete(Ok)) == (w3, fx);
    assert Navigate(TimelineRoute) in fx;
    assert Run(c, w, events) == (w3, [] + fx);
    assert [] + fx == fx;
  }

  /** Running the events is the empty run without events, and otherwise the first step followed by the rest. */
  lemma RunUnfold(c: Config, w: Wizard, events: seq<Event>)
    ensures events == [] ==> Run(c, w, events) == (w, [])
    ensures events != [] ==>
      var (w1, fx1) := Step(c, w, events[0]);
      Run(c, w, events) == (Run(c, w1, events[1..]).0, fx1 + Run(c, w1, events[1..]).1)
  {
  }

  /** Every navigation to the timeline in `fx` comes right after a profile update. */
  predicate TimelineAfterUpdate(fx: seq<Effect>) {
    forall k :: 0 <= k < |fx| && fx[k] == Navigate(TimelineRoute) ==> k > 0 && fx[k - 1].UpdateProfile?
  }

  /** A single event reaches the timeline only as the second of two effects, right after the profile update. */
  lemma StepTimeline(c: Config, w: Wizard, e: Event)
    ensures TimelineAfterUpdate(Step(c, w, e).1)
  {
    var fx := Step(c, w, e).1;
    if Navigate(TimelineRoute) in fx {
      assert |fx| == 2 && fx[0].UpdateProfile? && fx[1] == Navigate(TimelineRoute);
    }
  }

  /** Effects that each keep the timeline after an update still do so one after the other. */
  lemma TimelineAfterUpdateAppend(a: seq<Effect>, b: seq<Effect>)
    requires TimelineAfterUpdate(a) && TimelineAfterUpdate(b)
    ensures TimelineAfterUpdate(a + b)
  {
    forall k | 0 <= k < |a + b| && (a + b)[k] == Navigate(TimelineRoute)
      ensures k > 0 && (a + b)[k - 1].UpdateProfile?
    {
      if k >= |a| {
        assert b[k - |a|] == Navigate(TimelineRoute);
        assert (a + b)[k - 1] == b[k - |a| - 1];
      } else {
        assert a[k] == Navigate(TimelineRoute);
      }
    }
  }

  /** Whatever the events, the wizard only reaches the timeline right after sending a profile update. */
  lemma {:induction false} TimelineOnlyAfterUpdate(c: Config, w: Wizard, events: seq<Event>)
    ensures TimelineAfterUpdate(Run(c, w, events).1)
    decreases |events|
  {
    RunUnfold(c, w, events);
    hide Step, Run;
    if events != [] {
      var (w1, fx1) := Step(c, w, events[0]);
      StepTimeline(c, w, events[0]);
      TimelineOnlyAfterUpdate(c, w1, events[1..]);
      TimelineAfterUpdateAppend(fx1, Run(c, w1, events[1..]).1);
    }
  }
}

=== FILE: strings.dfy ===
/**
  The few JavaScript string primitives the client relies on, over `seq<char>`:
  `startsWith`, `indexOf` and `replace` with a string pattern, `trim`,
  `split(sep)[0]`, `toUpperCase` of one character and `Number.prototype.toString`.
*/
module Strings {
  import opened Wrappers

  /** `s.startsWith(p)`. */
  predicate StartsWith(s: string, p: string) {
    |p| <= |s| && s[..|p|] == p
  }

  /** `pat` occurs in `s` at position `i`. */
  predicate OccursAt(s: string, pat: string, i: nat) {
    i + |pat| <= |s| && s[i..i + |pat|] == pat
  }

  /** `s.indexOf(pat, from)`: the first position at or after `from` where `pat` occurs. */
  function IndexFrom(s: string, pat: string, from: nat): (r: Option<nat>)
    decreases |s| - from
    ensures r.Some? ==> from <= r.value && OccursAt(s, pat, r.value)
    ensures r.Some? ==> forall i :: from <= i < r.value ==> !OccursAt(s, pat, i)
    ensures r.None? ==> forall i :: from <= i ==> !OccursAt(s, pat, i)
  {
    if from + |pat| > |s| then None
    else if s[from..from + |pat|] == pat then Some(from)
    else IndexFrom(s, pat, from + 1)
  }

  /** `s.indexOf(pat)`. */
  function IndexOf(s: string, pat: string): Option<nat> {
    IndexFrom(s, pat, 0)
  }

  /** `s.replace(pat, rep)` with a string pattern: only the first occurrence is replaced. */
  function ReplaceFirst(s: string, pat: string, rep: string): (r: string)
    ensures IndexOf(s, pat).None? ==> r == s
    ensures IndexOf(s, pat).Some? ==>
      var i := IndexOf(s, pat).value;
      && OccursAt(s, pat, i) && (forall j :: 0 <= j < i ==> !OccursAt(s, pat, j))
      && |r| == |s| - |pat| + |rep|
      && r[..i] == s[..i] && r[i..i + |rep|] == rep && r[i + |rep|..] == s[i + |pat|..]
  {
    match IndexOf(s, pat)
    case None => s
    case Some(i) => s[..i] + rep + s[i + |pat|..]
  }

  /** When `s` starts with `pat`, deleting the first occurrence of `pat` strips exactly that prefix. */
  lemma ReplaceFirstOfPrefix(s: string, pat: string)
    requires StartsWith(s, pat)
    ensures ReplaceFirst(s, pat, "") == s[|pat|..]
  {
    hide ReplaceFirst, IndexFrom;
    assert OccursAt(s, pat, 0);
    assert IndexOf(s, pat) == Some(0);
    var r := ReplaceFirst(s, pat, "");
    assert r == r[0..];
  }

  /** The characters `String.prototype.trim` removes: ECMAScript WhiteSpace and LineTerminator. */
  predicate IsSpace(c: char) {
    || c == ' ' || c == '\t' || c == '\n' || c == '\r'
    || c == '\U{000B}' || c == '\U{000C}' || c == '\U{00A0}' || c == '\U{FEFF}'
    || c == '\U{1680}' || ('\U{2000}' <= c <= '\U{200A}')
    || c == '\U{2028}' || c == '\U{2029}' || c == '\U{202F}' || c == '\U{205F}' || c == '\U{3000}'
  }

  predicate AllSpace(s: string) {
    forall i :: 0 <= i < |s| ==> IsSpace(s[i])
  }

  /** Neither end of `s` is white space: what `trim` leaves behind. */
  predicate Trimmed(s: string) {
    s == [] || (!IsSpace(s[0]) && !IsSpace(s[|s| - 1]))
  }

  /** The length of the white-space prefix of `s`. */
  function LeadingSpace(s: string): (n: nat)
    ensures n <= |s|
    ensures AllSpace(s[..n])
    ensures n < |s| ==> !IsSpace(s[n])
  {
    if |s| > 0 && IsSpace(s[0]) then
      var n := 1 + LeadingSpace(s[1..]);
      assert s[..n] == [s[0]] + s[1..][..n - 1];
      n
    else 0
  }

  /** The length of the white-space suffix of `s`. */
  function TrailingSpace(s: string): (n: nat)
    ensures n <= |s|
    ensures AllSpace(s[|s| - n..])
    ensures n < |s| ==> !IsSpace(s[|s| - n - 1])
  {
    if |s| > 0 && IsSpace(s[|s| - 1]) then
      var n := 1 + TrailingSpace(s[..|s| - 1]);
      assert s[|s| - n..] == s[..|s| - 1][|s| - n..] + [s[|s| - 1]];
      n
    else 0
  }

  /** `s.trim()`: `s` is white space, then the result, then white space, and the result has no white space at either end. */
  function Trim(s: string): (r: string)
    ensures |r| <= |s|
    ensures Trimmed(r)
    ensures var a := LeadingSpace(s);
      a + |r| <= |s| && s[a..a + |r|] == r && AllSpace(s[..a]) && AllSpace(s[a + |r|..])
  {
    var a := LeadingSpace(s);
    var t := s[a..];
    var r := t[..|t| - TrailingSpace(t)];
    assert s[a..a + |r|] == r;
    assert s[a + |r|..] == t[|t| - TrailingSpace(t)..];
    r
  }

  /** A white-space prefix followed by a non-space character (or nothing) is exactly the leading white space. */
  lemma {:induction false} LeadingSpaceOf(p: string, t: string)
    requires AllSpace(p)
    requires t == [] || !IsSpace(t[0])
    ensures LeadingSpace(p + t) == |p|
  {
    if p != [] {
      assert (p + t)[1..] == p[1..] + t;
      LeadingSpaceOf(p[1..], t);
    } else {
      assert p + t == t;
    }
  }

  /** A white-space suffix preceded by a non-space character (or nothing) is exactly the trailing white space. */
  lemma {:induction false} TrailingSpaceOf(t: string, q: string)
    requires AllSpace(q)
    requires t == [] || !IsSpace(t[|t| - 1])
    ensures TrailingSpace(t + q) == |q|
  {
    if q != [] {
      assert (t + q)[..|t + q| - 1] == t + q[..|q| - 1];
      TrailingSpaceOf(t, q[..|q| - 1]);
    } else {
      assert t + q == t;
    }
  }

  /** The trimmed string is determined by any split of `s` into white space, a trimmed middle and white space. */
  lemma TrimUnique(p: string, m: string, q: string)
    requires AllSpace(p) && Trimmed(m) && AllSpace(q)
    ensures Trim(p + m + q) == m
  {
    var s := p + m + q;
    if m == [] {
      assert AllSpace(p + q) by {
        forall i | 0 <= i < |p + q| ensures IsSpace((p + q)[i]) {
          if i < |p| { assert (p + q)[i] == p[i]; } else { assert (p + q)[i] == q[i - |p|]; }
        }
      }
      LeadingSpaceOf(p + q, []);
      assert s == (p + q) + [];
    } else {
      LeadingSpaceOf(p, m + q);
      assert s == p + (m + q);
      assert s[|p|..] == m + q;
      TrailingSpaceOf(m, q);
      assert (m + q)[..|m|] == m;
    }
  }

  /** Trimming twice is trimming once. */
  lemma TrimIdempotent(s: string)
    ensures Trim(Trim(s)) == Trim(s)
  {
    TrimUnique([], Trim(s), []);
    assert [] + Trim(s) + [] == Trim(s);
  }

  /** The trim of `s` is empty exactly when `s` is all white space. */
  lemma TrimEmptyIff(s: string)
    ensures Trim(s) == [] <==> AllSpace(s)
  {
  }

  /** `s.split(sep)[0]`: the part of `s` before the first `sep`, or all of `s` when there is none. */
  function Before(s: string, sep: char): (r: string)
    ensures StartsWith(s, r)
    ensures sep !in r
    ensures |r| < |s| ==> s[|r|] == sep
  {
    if |s| == 0 || s[0] == sep then ""
    else [s[0]] + Before(s[1..], sep)
  }

  /** `c.toUpperCase()` for one character; only the ASCII letters are mapped. */
  function UpperAscii(c: char): (r: char)
    ensures 'a' <= c <= 'z' ==> 'A' <= r <= 'Z' && r as int + 32 == c as int
    ensures !('a' <= c <= 'z') ==> r == c
    ensures !('a' <= r <= 'z')
  {
    if 'a' <= c <= 'z' then (c as int - 32) as char else c
  }

  function DigitChar(d: nat): (c: char)
    requires d < 10
  {
    "0123456789"[d]
  }

  predicate IsDigit(c: char) {
    '0' <= c <= '9'
  }

  /** `n.toString()` for a non-negative integer. */
  function Decimal(n: nat): (r: string)
    ensures |r| >= 1
    ensures forall i :: 0 <= i < |r| ==> IsDigit(r[i])
    ensures r[0] == '0' ==> n == 0
  {
    if n < 10 then [DigitChar(n)] else Decimal(n / 10) + [DigitChar(n % 10)]
  }

  function DigitValue(c: char): (d: nat)
    requires IsDigit(c)
    ensures d < 10
  {
    c as int - '0' as int
  }

  /** The number a string of decimal digits denotes. */
  function DecimalValue(s: string): nat
    requires forall i :: 0 <= i < |s| ==> IsDigit(s[i])
  {
    if |s| == 0 then 0 else 10 * DecimalValue(s[..|s| - 1]) + DigitValue(s[|s| - 1])
  }

  /** `toString` loses nothing: reading the digits back gives the number. */
  lemma {:induction false} DecimalRoundTrip(n: nat)
    ensures DecimalValue(Decimal(n)) == n
  {
    if n >= 10 {
      var s := Decimal(n);
      assert s[..|s| - 1] == Decimal(n / 10);
      DecimalRoundTrip(n / 10);
    }
  }
}

=== FILE: wrappers.dfy ===
/** The nullable values of the client: `T | null` (and `T | undefined`) become `Option<T>`. */
module Wrappers {

  datatype Option<+T> = None | Some(value: T)

  /** The abstract result of a backend call: it either succeeded or reported an error. */
  datatype Outcome = Ok | Err

  /** JavaScript truthiness of a nullable string: present and not empty. */
  predicate Present(s: Option<string>) {
    s.Some? && s.value != ""
  }
}
